=== FILE: README.md ===
# sdradio1 control plane in Dafny

This project models the sequential control plane of the sdradio1 / sdrplay1 macOS
software-defined-radio application. The real-time DSP lives in the `sdrlib` library, which
is not part of this model. Around it sits a small amount of logic:

- **Receiver** (`ReceiveThread`). The receive thread wires the SDRplay tuner to a spectrum
  tap and to a demodulator assembly that feeds the audio output. It swaps assemblies by
  registry key (`"AM"`, `"FM"`, `"No demod."`). It also forwards tuning, gain and antenna
  settings, and starts and stops the tuner and the audio output in a fixed order.
- **Demodulator assemblies** (`AudioDemodulator`). The null demodulator builds nothing. The
  FM and AM demodulators each build a four-stage chain on the tuner:
  1. a rate converter down to 5 × the audio rate;
  2. a detector;
  3. a rate converter down to the audio rate;
  4. a finishing stage.

  Construction asserts that the chain's last stage runs at the audio rate, then connects
  the audio output to it.
- **Connection graph** (`StreamGraph`). An arena of `sdrlib` nodes under fresh handles.
  Each node records its stage, its construction parameters, its output rate and the set of
  sinks it feeds. Four behaviours of `sdrlib` are **assumed** because the receiver depends
  on them:
  - a stage constructed with `source:` becomes one of that source's sinks, and
    `disconnect(sink:)` removes exactly that sink;
  - `UpFIRDown(source, L, M, …)` outputs at the source rate × L / M;
  - `FMDemodulate`, `AMEnvDemodulate`, `FMDeemphasis` and `AGC` output at their input rate;
  - an `UpFIRDown` given a non-positive factor fails to construct (`BadRatio`).

  Whether the construction assertion holds depends on the second and third of these. So
  every "succeeds exactly when" contract of `Build`, `BuildChain`, `Init`,
  `SetDemodulator` and `ApplyAll` rests on them too.
- **Tuning controls** (`ContentView`). Each handler of the main view is a function from the
  view state to a `Reaction`: the new view state and the list of receiver `Command`s it
  sends. Pickers are modelled as the user changing a bound value, followed by the
  `onChange` handlers of every value that changed.
- **Presets** (`Presets`, `AppDelegate`). These are the Core Data `Band` and `Station`
  records, the seed records `setupData()` writes into an empty store, and the launch-time
  choice of receiver implementation. Records are managed objects, which the pickers
  compare by identity; each record carries an `id` standing for that identity. So a
  station saved with the same name and settings as an existing one is still a different
  choice.
- **Nil-substituting binding** (`OptionalBinding`). This is the get/set pair of
  `Binding.init(_:replacingNilWith:)`.
- **Type-erased fan-out source** (`TypeErase`). This is the sink list of the TryTypeErase
  playground, with its in-order delivery.

Rates and frequencies are `real` (Swift `Double`). Swift's `Int(Double)` is modelled as
truncation toward zero (`StreamGraph.Truncate`). A failed construction assertion, or a
non-positive rate-converter factor, is a `Failure` result rather than a precondition.

The receiver keeps a structural invariant, `ReceiveThread.Wired`:

- the tuner feeds the spectrum tap and at most the current assembly's head;
- the assembly's stages exist exactly when it is not the null demodulator;
- the audio output, when fed, is fed by the assembly's tail at the audio rate;
- the tuner runs at 50 × the audio rate;
- the spectrum is centred where the tuner is tuned.

`Init` establishes `Wired`, and every operation preserves it. Start and stop calls are
recorded as a trace of `DeviceEvent`s. `AudioFollowsStream` says that at every point of that
trace the audio plays only while the tuner streams.

An unknown demodulator key is not ignored. `setDemodulator` disconnects the current head
and the audio output *before* it looks the key up (sdrplay1/ReceiveThread.swift:130-134). So
an unknown key, such as the seeded Weather band's `"NFM"`, leaves the audio output unfed
(`ReceiveThread.SetDemodulator`, `AppDelegate.WeatherBandUnknownKey`).

## Model

| member | source | states |
|---|---|---|
| StreamGraph.Truncate | sdrplay1/AudioDemodulator.swift:31-32 | Swift `Int(x)` of a Double is within 1 of `x`, on the same side of zero, and never larger in magnitude |
| StreamGraph.AddStage | sdrplay1/AudioDemodulator.swift:30-35 | (assumed sdrlib behaviour) a stage built on `source` gets a fresh handle, becomes a sink of `source` only, and leaves every existing node and every other sink set unchanged |
| StreamGraph.AddStageKeepsFeeds | sdrplay1/AudioDemodulator.swift:37-46 | (assumed sdrlib behaviour) building a further stage keeps every existing connection, with its element types |
| StreamGraph.AddNode | sdrplay1/ReceiveThread.swift:80 | the tuner is a new node under a fresh handle with no sinks; no existing node changes |
| StreamGraph.Disconnect | sdrplay1/ReceiveThread.swift:130 | (assumed sdrlib behaviour) `disconnect(sink:)` removes exactly that sink from the source's set; nodes and all other sink sets are unchanged |
| AudioDemodulator.SeriesRate | sdrplay1/AudioDemodulator.swift:30-44 | two converters in series, L1/M1 then L2/L1, reach the audio rate exactly when producer × L2 = audio × M1 |
| AudioDemodulator.WholeRatesAreBuildable | sdrplay1/AudioDemodulator.swift:29-54 | with whole-Hz audio and producer rates of at least 1 Hz, every factor is positive and the construction assertion holds |
| AudioDemodulator.PlanRates | sdrplay1/AudioDemodulator.swift:28-54 | the rate plan exists exactly when the rates are buildable; its intermediate rate is audio × 5, its factors are the truncated rates, and the tail rate equals the audio rate |
| AudioDemodulator.WholeRatePlan | sdrplay1/AudioDemodulator.swift:29-44 | at whole-Hz rates the first converter uses factors 5·audio / producer, the second uses audio / 5·audio, and the intermediate rate is exactly 5 × audio |
| AudioDemodulator.StagesLinked | sdrplay1/AudioDemodulator.swift:30-49 | the four stages are fresh, increasing handles, and each is a sink of the one before it (the first of the source) with matching element types |
| AudioDemodulator.StagesFramed | sdrplay1/AudioDemodulator.swift:30-56 | building the stages changes no existing node, adds only the head to the source's sinks, and feeds the audio sink from a real-valued tail |
| AudioDemodulator.StagesFollowPlan | sdrplay1/AudioDemodulator.swift:30-49 | the stages carry the plan's detector and finisher and the converters' factors, half-length, window and relative cutoffs |
| AudioDemodulator.Assemble | sdrplay1/AudioDemodulator.swift:30-56 | building the four stages attaches them as a typed path of fresh nodes from the source, adds only the head to the source's sinks, and feeds the audio sink from the tail at the audio rate |
| AudioDemodulator.BuildChain | sdrplay1/AudioDemodulator.swift:27-57 | an FM/AM constructor succeeds exactly when the rate plan closes; on success the chain is attached and its stages follow the plan at the planned rates |
| AudioDemodulator.Build | sdrplay1/AudioDemodulator.swift:17-19 | the null demodulator succeeds, leaves graph and audio sink untouched, and has no head and no tail; FM and AM succeed exactly when buildable and are then attached with the audio output fed by their tail |
| AudioDemodulator.BuildFollowsPlan | sdrplay1/AudioDemodulator.swift:30-49 | every successful FM or AM construction has the stage order and parameters of its kind's plan at the planned rates |
| AudioDemodulator.ChainFollowsPlan | sdrplay1/AudioDemodulator.swift:27-57 | at whole-Hz rates an FM or AM construction succeeds and follows its plan |
| AudioDemodulator.ChainStages | sdrplay1/AudioDemodulator.swift:29-49 | at whole-Hz rates the four stages run at 5a, 5a, a, a Hz with factors 5a/producer and a/5a, half-length 15, Blackman window and cutoffs relative to each converter's output rate |
| AudioDemodulator.FMStageOrder | sdrplay1/AudioDemodulator.swift:22-57 | FM builds, in order: complex downsampler (cutoff 75000 / 5a) → FM discriminator (factor 0.5) → real downsampler (cutoff 15000 / a) → de-emphasis (75 µs), at rates 5a, 5a, a, a |
| AudioDemodulator.AMStageOrder | sdrplay1/AudioDemodulator.swift:61-89 | AM builds, in order: complex downsampler (cutoff 10000 / 5a) → envelope detector (factor 5) → real downsampler (cutoff 5000 / a) → AGC (gain 1000), at rates 5a, 5a, a, a |
| AudioDemodulator.FractionalAudioRateFails | sdrplay1/AudioDemodulator.swift:28-54 | at a 44100.5 Hz audio rate, truncating the rates leaves the tail at 44100 Hz and the construction assertion fails |
| ReceiveThread.RegistryRoundTrip | sdrplay1/ReceiveThread.swift:73-76 | the registry has exactly the keys "AM", "FM" and "No demod.", and each key maps to a distinct kind that maps back to it |
| ReceiveThread.Init | sdrplay1/ReceiveThread.swift:79-100 | construction succeeds exactly when FM is buildable at audio rate a on a 50·a tuner; it yields a wired receiver running FM with the audio fed by FM's tail, tuner sinks = {spectrum, FM head}, the initial options, not tuned and nothing started |
| ReceiveThread.FreshTunerReady | sdrplay1/ReceiveThread.swift:88-94 | FM built on a fresh tuner leaves the tuner feeding only the FM head, and the audio sink fed by the tail at the audio rate |
| ReceiveThread.WithSpectrum | sdrplay1/ReceiveThread.swift:94-96 | adding the spectrum tap after the FM assembly yields a wired receiver whose tuner feeds exactly the tap and the FM head |
| ReceiveThread.SetFrequency | sdrplay1/ReceiveThread.swift:121-125 | the tuner frequency and the spectrum centre both become `hz`; nothing else changes |
| ReceiveThread.Detach | sdrplay1/ReceiveThread.swift:130-131 | the old head (if any) is no longer a tuner sink, the spectrum tap still is, the audio output has no feed, and nothing else changes |
| ReceiveThread.InstallWired | sdrplay1/ReceiveThread.swift:132-134 | installing a freshly built assembly on a detached receiver restores the invariant; the tuner then feeds exactly the tap and the new head |
| ReceiveThread.Install | sdrplay1/ReceiveThread.swift:132-134 | constructing a registered kind on a detached receiver succeeds exactly when buildable (always for the null kind); the new assembly's stages are fresh and feed the audio output |
| ReceiveThread.SetDemodulator | sdrplay1/ReceiveThread.swift:127-135 | success exactly when the key is unknown, is the null kind, or the rates are buildable; an unknown key keeps the assembly but removes its head and the audio feed; a known key installs a fresh assembly of that kind whose head replaces only the old head among the tuner's sinks; tuning, settings, events and other sink sets are unchanged |
| ReceiveThread.SwapDetachesOldAssembly | sdrplay1/ReceiveThread.swift:96-134 | after any swap the spectrum tap still feeds from the tuner, the old head no longer does, and after a known key no old stage feeds the audio output |
| ReceiveThread.UnknownKeyIdempotent | sdrplay1/ReceiveThread.swift:130-134 | an unknown key always succeeds, and sending it twice equals sending it once |
| ReceiveThread.WholeAudioRateInit | sdrplay1/ReceiveThread.swift:87-94 | at a whole-Hz audio rate of at least 1 Hz the receiver can be constructed |
| ReceiveThread.WholeAudioRateSwap | sdrplay1/ReceiveThread.swift:127-135 | at a whole-Hz audio rate of at least 1 Hz every key can be selected |
| ReceiveThread.FractionalAudioRateInitFails | sdrplay1/ReceiveThread.swift:87-94 | at a 44100.5 Hz audio rate the receiver cannot be constructed |
| ReceiveThread.StartReceive | sdrplay1/ReceiveThread.swift:137-143 | afterwards the tuner streams and the audio plays; debug logging ends disabled; the audio-after-stream discipline is kept; earlier events are a prefix |
| ReceiveThread.StopReceive | sdrplay1/ReceiveThread.swift:145-149 | afterwards neither the tuner nor the audio runs, the audio-after-stream discipline is kept (audio stops first), and nothing else changes |
| ReceiveThread.Cancel | sdrplay1/ReceiveThread.swift:151-154 | the events are exactly those of `stopReceive` (audio stop, then stream stop) followed by the thread cancel; afterwards nothing runs and the discipline is kept |
| ReceiveThread.StartKeepsAudioAfterStream | sdrplay1/ReceiveThread.swift:139-142 | starting the stream before resuming audio keeps "audio plays only while the tuner streams" at every point of the trace |
| ReceiveThread.StopKeepsAudioAfterStream | sdrplay1/ReceiveThread.swift:147-148 | stopping audio before the stream keeps the discipline at every point of the trace |
| ReceiveThread.CancelKeepsAudioAfterStream | sdrplay1/ReceiveThread.swift:151-154 | the thread cancel after the stop keeps the discipline |
| ReceiveThread.Gains | sdrplay1/ReceiveThread.swift:167-169 | 17 offered gains, the i-th being −5·i dB |
| ReceiveThread.MockAntennas | sdrplay1/ReceiveThread.swift:55-57 | the mock receiver offers three distinct antennas, the first "Antenna 1" |
| ReceiveThread.MockGains | sdrplay1/ReceiveThread.swift:61-63 | the mock receiver offers nine gains, the i-th being −10·i dB |
| ReceiveThread.MockGainsAreLiveGains | sdrplay1/ReceiveThread.swift:61-63 | each mock gain is the live receiver's gain at twice its index, so every mock gain is one the live receiver offers |
| ReceiveThread.SetGain | sdrplay1/ReceiveThread.swift:171-173 | the tuner's gain reduction becomes the negated gain, so the gain read back is the one set; nothing else changes |
| ReceiveThread.SetAntenna | sdrplay1/ReceiveThread.swift:163-165 | only the antenna option changes |
| ReceiveThread.GainsAreReductions | sdrplay1/ReceiveThread.swift:83-173 | every offered gain sets a reduction in [0, 80] that is a multiple of 5, every such reduction is offered, and the initial reduction 40 is one of them |
| ReceiveThread.Apply | sdrplay1/ReceiveThread.swift:11-26 | each interface call has its effect (tune, swap, start, stop, antenna, gain); only a swap can fail; every call keeps the invariant, the audio rate and the audio-after-stream discipline, and only tuning changes the tuning |
| ReceiveThread.ApplyAll | sdrplay1/ReceiveThread.swift:11-26 | a command sequence without swaps succeeds; a successful one keeps the invariant and the discipline, and leaves the receiver tuned to the last tuning sent, if any |
| ReceiveThread.WholeAudioRateCommands | sdrplay1/ReceiveThread.swift:11-26 | at a whole-Hz audio rate every command sequence succeeds |
| Presets.FirstNamed | sdradio1/AppDelegate.swift:81-88 | a one-result fetch by name returns None exactly when no band has the name, and otherwise a band with that name (the first in store order) |
| ContentView.Initial | sdrplay1/ContentView.swift:52-63 | a new view has the given frequency, antenna and gain, a 200 kHz step, "FM", stopped, and nothing selected |
| ContentView.SubmitFrequency | sdrplay1/ContentView.swift:99-102 | submitting sends exactly one command, a tuning to the shown frequency × 1000 Hz, and changes no state |
| ContentView.StepUp | sdrplay1/ContentView.swift:116-121 | the frequency grows by the step, the field loses focus, and the one command tunes to the new frequency × 1000 |
| ContentView.StepDown | sdrplay1/ContentView.swift:123-128 | the frequency shrinks by the step, the field loses focus, and the one command tunes to the new frequency × 1000 |
| ContentView.KeyDown | sdrplay1/ContentView.swift:250-264 | the up-arrow key acts as the up button and the down-arrow key as the down button; any other key, or none, changes nothing |
| ContentView.ToggleHandler | sdrplay1/ContentView.swift:135-143 | the toggle's handler sends nothing when `started` did not change, a tuning to the shown frequency × 1000 then a start when it turned on, and only a stop when it turned off |
| ContentView.SettingHandlers | sdrplay1/ContentView.swift:154-186 | the picker handlers send a demodulator, antenna or gain command exactly when that value changed, and never tune, start or stop |
| ContentView.OnChange | sdrplay1/ContentView.swift:135-186 | a start, stop, demodulator, antenna or gain command is sent exactly when that value changed, and nothing is sent when none did; every tuning sent is to the shown frequency × 1000 |
| ContentView.OnChangeOrder | sdrplay1/ContentView.swift:135-143 | a start is preceded by a tuning to the shown frequency × 1000, a stop is sent first, and nothing tunes when the toggle did not change |
| ContentView.Changed | sdrplay1/ContentView.swift:135-186 | changing bound values leaves the view at the new values and sends the change handlers' commands for the values that changed |
| ContentView.ToggleStart | sdrplay1/ContentView.swift:135-142 | only `started` flips; toggling on sends exactly a tuning to the shown frequency × 1000 followed by a start, and toggling off sends exactly one stop |
| ContentView.PickDemodulator | sdrplay1/ContentView.swift:154-158 | a newly picked key is forwarded to the receiver unchanged; re-picking the same key sends nothing |
| ContentView.PickAntenna | sdrplay1/ContentView.swift:168-172 | a newly picked antenna is forwarded; the same one sends nothing |
| ContentView.PickGain | sdrplay1/ContentView.swift:182-186 | a newly picked gain is forwarded; the same one sends nothing |
| ContentView.DemodulatorChoices | sdrplay1/ContentView.swift:147 | the picker offers exactly the registry's keys, in sorted order |
| ContentView.SetToBand | sdrplay1/ContentView.swift:272-284 | no band changes nothing; a band always sets frequency and step, sets demodulator and antenna only when it has them, and changes nothing else |
| ContentView.SelectBand | sdrplay1/ContentView.swift:198-200 | re-selecting the current band does nothing; a new band applies `setToBand` and then sends the change handlers' commands for the demodulator and antenna it changed; any tuning sent is to the shown frequency × 1000 |
| ContentView.SetToStation | sdrplay1/ContentView.swift:286-301 | a station sets the shown frequency, the selected band, and its demodulator if it has one, and changes nothing else in the view; while stopped nothing is sent; while started exactly a tuning to the unscaled kHz figure is sent, followed by the station's demodulator when it has one |
| ContentView.StationDemodulation | sdrplay1/ContentView.swift:296-299 | the demodulator command of a started station handler: none exactly when the station has no demodulator, otherwise one carrying the station's key; it never tunes, starts, stops or changes the gain |
| ContentView.SetToStationCorrected | sdrplay1/ContentView.swift:286-301 | as `setToStation`, with the same frame on the rest of the view, but while started it sends exactly a tuning to the shown frequency × 1000 followed by the station's demodulator when it has one |
| ContentView.SelectStation | sdrplay1/ContentView.swift:201-211 | re-selecting the current station changes nothing and sends nothing; the blank entry only clears the selection; a new station is picked as `PickStation` describes |
| ContentView.PickStation | sdrplay1/ContentView.swift:286-301 | picking a new station: when its band is not the shown one the band picker's handler applies `setToBand` to it; then the station's frequency, and its demodulator when it has one, are shown, with its band and the station selected; while started exactly one tuning, to the unscaled kHz figure, is sent, and none while stopped; nothing starts, stops or changes the gain; a changed demodulator or antenna is forwarded |
| ContentView.SelectStationCorrected | sdrplay1/ContentView.swift:201-211 | the station picker with the corrected handler: the same guard for the current station and the blank entry, a new station picked as `PickStationCorrected` describes, and every tuning it sends is to the shown frequency × 1000 |
| ContentView.PickStationCorrected | sdrplay1/ContentView.swift:286-301 | as `PickStation`, with the same view, but the one tuning sent while started is to the station's frequency × 1000, which is the shown frequency × 1000 |
| ContentView.BandStageQuiet | sdrplay1/ContentView.swift:198-200 | the band picker's reaction during a station pick leaves `started` and the gain as they were and sends no tuning, start, stop or gain command |
| ContentView.SaveStation | sdrplay1/ContentView.swift:215-224 | saving adds one station after the existing ones, with the entered name and the shown frequency, demodulator and band, distinct from every existing station |
| Presets.FreshStationId | sdrplay1/ContentView.swift:217-222 | a newly inserted station's identity differs from, and exceeds, every existing station's |
| ContentView.StepRoundTrip | sdrplay1/ContentView.swift:116-128 | a step up then down, or down then up, restores the frequency |
| ContentView.ToggleTwice | sdrplay1/ContentView.swift:135-142 | toggling twice restores the view, and one of the two sends a start exactly when the other sends a stop |
| ContentView.ToggleDrivesReceiver | sdrplay1/ContentView.swift:135-142 | applying a toggle's commands leaves the receiver streaming and playing exactly when the view says started, and tuned to the shown frequency × 1000 when it starts |
| ContentView.SubmitTunesReceiver | sdrplay1/ContentView.swift:99-102 | a submit tunes the receiver, and centres its spectrum, at the shown frequency × 1000 |
| ContentView.SetToBandIdempotent | sdrplay1/ContentView.swift:198-200 | applying a band twice equals applying it once, and re-selecting the same band sends nothing |
| ContentView.SelectBandForwards | sdrplay1/ContentView.swift:272-284 | a newly chosen band forwards its demodulator and antenna when they differ from the view's, sends no demodulator when it has none, and neither tunes, starts nor stops |
| ContentView.PickDemodulatorDrivesReceiver | sdrplay1/ContentView.swift:154-158 | on a wired receiver a new key has exactly the effect of `setDemodulator`, including its failure, and the shown key has none |
| ContentView.PickAntennaDrivesReceiver | sdrplay1/ContentView.swift:168-172 | on a wired receiver a new antenna is set on the tuner, and the shown one changes nothing |
| ContentView.PickGainDrivesReceiver | sdrplay1/ContentView.swift:182-186 | on a wired receiver a new gain is set on the tuner, and the shown one changes nothing |
| ContentView.SelectStationIdempotent | sdrplay1/ContentView.swift:209-211 | choosing the station the view already shows changes nothing and sends nothing |
| ContentView.SetToStationUnscaled | sdrplay1/ContentView.swift:294 | while started, the tuning sent is the station's kHz figure, which differs from the shown frequency in Hz |
| ContentView.SelectStationUnscaled | sdrplay1/ContentView.swift:209-211 | picking a new station while started sends the station's kHz figure as the tuning, which disagrees with the shown frequency × 1000 |
| ContentView.DuplicateStationPicked | sdrplay1/ContentView.swift:201-211 | a station equal in name, frequency, demodulator and band to the selected one but a different record is a new choice: picking it while started tunes the receiver again and selects it |
| ContentView.DuplicateBandApplied | sdrplay1/ContentView.swift:190-200 | a band equal in content to the selected one but a different record is a new choice: picking it selects it and resets the shown frequency and step to the band's |
| ContentView.SavedCopyPicked | sdrplay1/ContentView.swift:201-224 | saving the shown station under its own name and then picking the saved record while started tunes the receiver to the shown frequency again |
| ContentView.StationAgreesWithSubmit | sdrplay1/ContentView.swift:286-301 | the corrected handler tunes exactly as submitting the frequency it shows would, and tunes nothing while stopped |
| OptionalBinding.Get | sdradio1/OptionalBinding.swift:28 | reads the source's value, or the nil value when the source is nil |
| OptionalBinding.Set | sdradio1/OptionalBinding.swift:29-35 | stores nil exactly when the nil value is written, and otherwise the value written |
| OptionalBinding.GetAfterSet | sdradio1/OptionalBinding.swift:11-24 | reading after writing any value gives back that value |
| OptionalBinding.SetIdempotent | sdradio1/OptionalBinding.swift:29-35 | writing a value twice equals writing it once |
| OptionalBinding.SetAfterGet | sdradio1/OptionalBinding.swift:28-35 | writing back what was read preserves the source exactly when it does not hold the nil value itself; `Some(nilValue)` becomes nil |
| TypeErase.Add | sdrplay1/TryTypeErase.playground/Contents.swift:16-19 | adding appends exactly one sink, after all earlier ones |
| TypeErase.Deliveries | sdrplay1/TryTypeErase.playground/Contents.swift:20-22 | running delivers the same value to each sink, one delivery per sink, in list order |
| TypeErase.Run | sdrplay1/TryTypeErase.playground/Contents.swift:20-22 | the loop delivers the unmodified value to every sink in registration order, and nothing when there are no sinks |
| TypeErase.AddThenRun | sdrplay1/TryTypeErase.playground/Contents.swift:16-22 | after an add, a run delivers what it delivered before, then once more to the new sink |
| TypeErase.AddedTwiceDeliveredTwice | sdrplay1/TryTypeErase.playground/Contents.swift:16-22 | a sink added twice receives each value two more times than before |
| TypeErase.PlaygroundScript | sdrplay1/TryTypeErase.playground/Contents.swift:33-39 | the script's run delivers "input" to y, then to z |
| AppDelegate.LaunchChoice | sdradio1/AppDelegate.swift:18-39 | the previews or XCTest environment always gives the mock; otherwise the first argument "TestAudio" (440 Hz, level 0.2), "TestSpectrum" or "TestCycle" picks its harness, and anything else gives the live receiver |
| AppDelegate.SeedStations | sdradio1/AppDelegate.swift:80-109 | four stations are seeded, each linked only to a band of the store |
| AppDelegate.SetupData | sdradio1/AppDelegate.swift:41-118 | bands are seeded only into a store without bands and stations only into one without stations; existing records are kept |
| AppDelegate.SetupIdempotent | sdradio1/AppDelegate.swift:48-80 | setting up a set-up store changes nothing |
| AppDelegate.FreshStoreLinksStations | sdradio1/AppDelegate.swift:80-109 | in a fresh store CFMK and CFLY link to the FM band, XJV363 to Weather and SigGen to AM |
| AppDelegate.LaunchView | sdradio1/AppDelegate.swift:125-129 | the launch view exists exactly when the receiver offers an antenna; it opens at 96300 kHz on the first antenna with gain −40 |
| AppDelegate.LaunchGainMatchesReceiver | sdradio1/AppDelegate.swift:125-129 | the launch gain −40 is offered and equals the gain of the receiver's initial reduction |
| AppDelegate.MockLaunchView | sdradio1/AppDelegate.swift:125-129 | with the mock receiver the view opens on "Antenna 1", and the launch gain −40 is one of the mock's gains |
| AppDelegate.WeatherBandSends | sdradio1/AppDelegate.swift:63-68 | choosing the seeded Weather band from an FM view sends "NFM", followed by "Antenna A" exactly when the view shows another antenna |
| AppDelegate.UnknownKeyUnfeeds | sdrplay1/ReceiveThread.swift:130-134 | sending "NFM", alone or followed by an antenna selection, succeeds and leaves the audio output without a feed |
| AppDelegate.WeatherBandUnknownKey | sdradio1/AppDelegate.swift:63-68 | selecting the seeded Weather band sends "NFM", which the registry lacks, so the receiver ends with its audio output unfed |
| AppDelegate.SigGenFromFMBand | sdradio1/AppDelegate.swift:104-109 | picking the seeded SigGen station from a stopped FM view applies its AM band first: "AM" and "Antenna C" are sent, nothing is tuned, and the view shows 1400 kHz with a 10 kHz step |
| AppDelegate.StationTunes | sdrplay1/ReceiveThread.swift:121-135 | a tuning followed by an FM selection succeeds and leaves the receiver tuned to that frequency |
| AppDelegate.StationCFMKTuning | sdradio1/AppDelegate.swift:90-94 | selecting CFMK while started shows 96300 kHz but tunes the receiver to 96300 Hz; the corrected handler tunes to 96300000 Hz |

## Left out

- `sdrlib` internals: FIR design, decimation, FM/AM detection, de-emphasis, AGC, FFT and the audio ring buffer. Its source is not part of this model. Nodes are opaque handles with declared rates, and the four behaviours listed above are assumptions.
- The thread's `main`, `receiveLoop`, `set_realtime`, activity tokens and `printTimes`: these are real-time concurrency and OS calls. The swap in `setDemodulator` is modelled as one sequential call; the race with a running receive loop is not modelled.
- `MockReceiveThread` (sdrplay1/ReceiveThread.swift:29-67): its radio methods only print, and its 1 Hz oscillator and 16-point spectrum are `sdrlib` wiring. Its antenna and gain lists are modelled (`ReceiveThread.MockAntennas`, `ReceiveThread.MockGains`). The test harnesses `TestAudio`, `TestSpectrum` and `TestCycle` are only `sdrlib` wiring. `LaunchChoice` names which of them is chosen.
- The live receiver's `getAntennas()`: the list comes from the device driver. `AppDelegate.LaunchView` takes it as a parameter; the mock's list is `ReceiveThread.MockAntennas`.
- The tuner's antenna option value `OptAntenna_A` lives in the driver. The model represents it by the name the presets use, "Antenna A".
- The audio output is assumed not to be playing before the first `startReceive`, so the event trace starts empty.
- `startReceive` enables and then disables debug logging around the stream start. Only the final disabled state is modelled, not the intermediate option call.
- Swift's `assert` is compiled out of release builds. The model treats a failed construction assertion as a failure in every build.
- `Int(Double)` traps on values outside the 64-bit range. Rates are unbounded here.
- The cutoffs are computed in `Float`; the rates and the view's frequency and step are `Double`. The model uses exact `real` arithmetic, so rounding is not modelled for rates, cutoffs, or the view's frequency arithmetic. In particular, `ContentView.StepRoundTrip` holds exactly, but a `Double` step up and back down need not restore the frequency when the step is fractional.
- SwiftUI layout, styles, the frequency-step field and `StationsView`: these are rendering only.
- `DispatchQueue.main.async` in `setToStation` and the key handler: the deferred blocks run immediately, in order. The key handler's reset of `keyDownEvent` is left out because it only re-arms the key event.
- Presets.FirstNamed: returns the first band of that name in store order. The fetch sets no sort descriptors, so which of several same-named bands Core Data returns is unspecified.
- The order in which SwiftUI runs a station pick's re-dispatch is assumed, not derived: `PickStation` runs the band picker's `onChange` (caused by `setToStation`'s write of the selected band) before the deferred block, and the demodulator picker's `onChange` after it. SwiftUI's scheduling of `onChange` relative to `DispatchQueue.main.async` is framework behaviour that this model does not include.
- The pickers list bands and stations sorted by name; the order of choices is display only. A record's identity is the `id` field. Ids are unique within a store, which Core Data guarantees.
- The save field's own text, which it clears after saving, and its `print`: these are display only. `ContentView.SaveStation` models the record it inserts. Core Data fetch, save, undo and error handling (sdradio1/AppDelegate.swift:152-251) are persistence. The store is a value with `seq`s of records.
- `setupData()` save errors are not modelled: a failed `context.count` or `save` only prints.

## Findings

| source | as written | input that shows it | evidently intended | confidence | as-written member | corrected member |
|---|---|---|---|---|---|---|
| sdrplay1/ContentView.swift:294 | `setToStation` calls `setFrequency(frequency)` with the station's kHz figure | the seeded station CFMK (96300 kHz) selected while started: the view shows 96300 kHz but the tuner is set to 96300 Hz | `setFrequency(frequency * 1e3)`, as the submit, step, arrow-key and start handlers send | high; not executed | ContentView.SetToStationUnscaled | ContentView.SetToStationCorrected |

=== FILE: AppDelegate.dfy ===
/** Start-up of sdradio1/AppDelegate.swift: which receiver the application runs with, the
    preset bands and stations it seeds into an empty store, and the view it opens. */
module AppDelegate {
  import opened Wrappers
  import opened Presets
  import opened AudioDemodulator
  import opened ReceiveThread
  import opened ContentView

  const PREVIEWS_VARIABLE := "XCODE_RUNNING_FOR_PREVIEWS"
  const XCTEST_VARIABLE := "XCTestConfigurationFilePath"

  /** The receiver implementations the application can be started with. */
  datatype ReceiverChoice =
    | Mock                                  // MockReceiveThread
    | TestAudio(signalHz: real, level: real)
    | TestSpectrum
    | TestCycle
    | Live                                  // ReceiveThread

  /** The receiver chosen from the process environment and arguments (`args[0]` is the
      program). A preview or test run always gets the mock; otherwise the first argument
      names a test harness, and anything else runs the live receiver. */
  function LaunchChoice(env: map<string, string>, args: seq<string>): (r: ReceiverChoice)
    ensures r.Mock? <==> PREVIEWS_VARIABLE in env || XCTEST_VARIABLE in env
    ensures !r.Mock? ==>
              && (r.TestAudio? <==> |args| > 1 && args[1] == "TestAudio")
              && (r.TestSpectrum? <==> |args| > 1 && args[1] == "TestSpectrum")
              && (r.TestCycle? <==> |args| > 1 && args[1] == "TestCycle")
    ensures r.Live? <==>
              && PREVIEWS_VARIABLE !in env && XCTEST_VARIABLE !in env
              && (|args| <= 1 || args[1] !in {"TestAudio", "TestSpectrum", "TestCycle"})
    ensures r.TestAudio? ==> r == TestAudio(440.0, 0.2)
  {
    if PREVIEWS_VARIABLE in env then Mock
    else if XCTEST_VARIABLE in env then Mock
    else if |args| > 1 && args[1] == "TestAudio" then TestAudio(440.0, 0.2)
    else if |args| > 1 && args[1] == "TestSpectrum" then TestSpectrum
    else if |args| > 1 && args[1] == "TestCycle" then TestCycle
    else Live
  }

  // The seeded bands.
  const AM_BAND := Band(0, "AM", Some("Antenna C"), Some("AM"), 1000.0, 10.0)
  const FM_BAND := Band(1, "FM", Some("Antenna A"), Some("FM"), 100100.0, 200.0)
  const WEATHER_BAND := Band(2, "Weather", Some("Antenna A"), Some("NFM"), 162400.0, 25.0)
  const SEED_BANDS := [AM_BAND, FM_BAND, WEATHER_BAND]

  /** The seeded stations, each linked to the band of its name found among `bands` (none
      when there is no such band). */
  function SeedStations(bands: seq<Band>): (r: seq<Station>)
    ensures |r| == 4
    ensures forall i :: 0 <= i < |r| ==> r[i].band.Some? ==> r[i].band.value in bands
  {
    [ Station(0, "CFMK", 96300.0, Some("FM"), FirstNamed(bands, "FM")),
      Station(1, "CFLY", 98300.0, Some("FM"), FirstNamed(bands, "FM")),
      Station(2, "XJV363", 162400.0, Some("FM"), FirstNamed(bands, "Weather")),
      Station(3, "SigGen", 1400.0, Some("AM"), FirstNamed(bands, "AM")) ]
  }

  /** The preset store: its bands and its stations. */
  datatype Store = Store(bands: seq<Band>, stations: seq<Station>)

  /** `setupData()`: bands are seeded only into a store with none, then stations only into
      a store with none, linked to the bands the store then holds. */
  function SetupData(s: Store): (r: Store)
    ensures |s.bands| == 0 ==> r.bands == SEED_BANDS
    ensures |s.bands| > 0 ==> r.bands == s.bands
    ensures |s.stations| == 0 ==>
              && |r.stations| == 4
              && forall i :: 0 <= i < 4 ==> r.stations[i].band.Some? ==> r.stations[i].band.value in r.bands
    ensures |s.stations| > 0 ==> r.stations == s.stations
  {
    var bands := if |s.bands| == 0 then SEED_BANDS else s.bands;
    var stations := if |s.stations| == 0 then SeedStations(bands) else s.stations;
    Store(bands, stations)
  }

  /** Setting up an already set-up store changes nothing. */
  lemma SetupIdempotent(s: Store)
    ensures SetupData(SetupData(s)) == SetupData(s)
  {
  }

  /** In a fresh store every seeded station is linked to the seeded band of its name. */
  lemma FreshStoreLinksStations()
    ensures var r := SetupData(Store([], []));
            && r.stations[0].band == Some(FM_BAND) && r.stations[1].band == Some(FM_BAND)
            && r.stations[2].band == Some(WEATHER_BAND) && r.stations[3].band == Some(AM_BAND)
  {
    var rest := SEED_BANDS[1..];
    assert rest == [FM_BAND, WEATHER_BAND] && rest[1..] == [WEATHER_BAND];
    assert FirstNamed(rest, "FM") == Some(FM_BAND);
    assert FirstNamed(rest[1..], "Weather") == Some(WEATHER_BAND);
    assert FirstNamed(rest, "Weather") == Some(WEATHER_BAND);
  }

  // The view opened at launch.
  const LAUNCH_FREQUENCY := 96300.0
  const LAUNCH_GAIN := -40

  /** The view the application opens, given the receiver's antenna names: the first antenna
      is selected, so there is no view when the receiver offers none. */
  function LaunchView(antennas: seq<string>): (r: Option<View>)
    ensures r.Some? <==> |antennas| > 0
    ensures r.Some? ==> r.value == Initial(LAUNCH_FREQUENCY, antennas[0], LAUNCH_GAIN)
  {
    if |antennas| == 0 then None else Some(Initial(LAUNCH_FREQUENCY, antennas[0], LAUNCH_GAIN))
  }

  /** The gain the view opens with is one the receiver offers, and is the gain the receiver
      is constructed with. */
  lemma LaunchGainMatchesReceiver(audioHz: real, antennas: seq<string>)
    requires Init(audioHz).Success? && |antennas| > 0
    ensures LaunchView(antennas).value.gain == Gain(Init(audioHz).value)
    ensures LaunchView(antennas).value.gain in Gains()
  {
    GainsAreReductions(Init(audioHz).value);
  }

  /** Under previews and unit tests the mock receiver's lists reach the view: it opens on
      "Antenna 1", and its launch gain is among the mock's gains. */
  lemma MockLaunchView()
    ensures LaunchView(MockAntennas()) == Some(Initial(LAUNCH_FREQUENCY, "Antenna 1", LAUNCH_GAIN))
    ensures LAUNCH_GAIN in MockGains()
  {
    assert MockGains()[4] == LAUNCH_GAIN;
  }

  /** Choosing the seeded Weather band from an FM view sends its demodulator key "NFM", then
      its antenna when the view shows another one. */
  lemma WeatherBandSends(v: View)
    requires v.demodulator == "FM" && v.selectedBand != Some(WEATHER_BAND)
    ensures SelectBand(v, Some(WEATHER_BAND)).sent
            == if v.antenna == "Antenna A" then [Demodulate("NFM")]
               else [Demodulate("NFM"), SelectAntenna("Antenna A")]
  {
  }

  /** Sending "NFM" to a wired receiver, alone or followed by an antenna selection, leaves
      its audio sink without a feed. */
  lemma UnknownKeyUnfeeds(rx: Receiver, antenna: string, sent: seq<Command>)
    requires Wired(rx)
    requires sent == [Demodulate("NFM")] || sent == [Demodulate("NFM"), SelectAntenna(antenna)]
    ensures "NFM" !in Registry
    ensures ApplyAll(rx, sent).Success? && ApplyAll(rx, sent).value.audio.feed == None
  {
    assert "NFM" !in Registry;
    var rx1 := SetDemodulator(rx, "NFM").value;
    if |sent| == 1 {
      ApplyAllCons(rx, Demodulate("NFM"), []);
      assert sent == [Demodulate("NFM")] + [];
    } else {
      ApplyAllCons(rx, Demodulate("NFM"), [SelectAntenna(antenna)]);
      ApplyAllCons(rx1, SelectAntenna(antenna), []);
      assert sent == [Demodulate("NFM")] + [SelectAntenna(antenna)];
    }
  }

  /** Either way, the Weather band's commands are "NFM", possibly followed by its antenna. */
  lemma WeatherBandSendsNFM(v: View)
    requires v.demodulator == "FM" && v.selectedBand != Some(WEATHER_BAND)
    ensures var sent := SelectBand(v, Some(WEATHER_BAND)).sent;
            && (sent == [Demodulate("NFM")] || sent == [Demodulate("NFM"), SelectAntenna("Antenna A")])
            && Demodulate("NFM") in sent
  {
    WeatherBandSends(v);
    assert SelectBand(v, Some(WEATHER_BAND)).sent[0] == Demodulate("NFM");
  }

  /** Choosing the seeded Weather band sends its demodulator key "NFM", which the registry
      does not have: the receiver detaches its demodulator and leaves the audio sink without a
      feed. */
  lemma WeatherBandUnknownKey(v: View, rx: Receiver)
    requires Wired(rx)
    requires v.demodulator == "FM" && v.selectedBand != Some(WEATHER_BAND)
    ensures "NFM" !in Registry
    ensures Demodulate("NFM") in SelectBand(v, Some(WEATHER_BAND)).sent
    ensures var after := ApplyAll(rx, SelectBand(v, Some(WEATHER_BAND)).sent);
            after.Success? && after.value.audio.feed == None
  {
    WeatherBandSendsNFM(v);
    UnknownKeyUnfeeds(rx, "Antenna A", SelectBand(v, Some(WEATHER_BAND)).sent);
  }

  /** Picking the seeded SigGen station from a stopped view on the FM band, showing "FM" on
      "Antenna A": its band differs, so the band picker applies the AM band first. "AM" and
      "Antenna C" are sent and the step becomes the AM band's 10 kHz, though nothing is
      tuned while stopped. */
  lemma SigGenFromFMBand(v: View)
    requires !v.started && v.selectedBand == Some(FM_BAND)
    requires v.demodulator == "FM" && v.antenna == "Antenna A"
    requires v.selectedStation != Some(SeedStations(SEED_BANDS)[3])
    ensures var r := SelectStation(v, Some(SeedStations(SEED_BANDS)[3]));
            && Demodulate("AM") in r.sent && SelectAntenna("Antenna C") in r.sent
            && Tunings(r.sent) == []
            && r.view.frequency == 1400.0 && r.view.frequencyStep == 10.0
            && r.view.demodulator == "AM" && r.view.antenna == "Antenna C"
  {
    var sigGen := SeedStations(SEED_BANDS)[3];
    assert FirstNamed(SEED_BANDS, "AM") == Some(AM_BAND);
    assert sigGen.band == Some(AM_BAND);
    var r := SelectStation(v, Some(sigGen));
    assert StationPicked(v, sigGen, r, sigGen.frequency);
  }

  /** A wired receiver at a whole-Hz audio rate, sent a tuning then an FM selection, ends
      tuned to that frequency. */
  lemma StationTunes(rx: Receiver, sent: seq<Command>, hz: real)
    requires Wired(rx) && Whole(rx.audio.rate) && rx.audio.rate >= 1.0
    requires sent == [Tune(hz), Demodulate("FM")]
    ensures ApplyAll(rx, sent).Success? && ApplyAll(rx, sent).value.tuneHz == Some(hz)
  {
    WholeAudioRateCommands(rx, sent);
    LastTuneThenSwap(hz);
  }

  lemma LastTuneThenSwap(hz: real)
    ensures LastTune([Tune(hz), Demodulate("FM")]) == Some(hz)
  {
    var cs := [Tune(hz), Demodulate("FM")];
    assert cs[..|cs| - 1] == [Tune(hz)];
  }

  /** The finding on a seeded station: selecting CFMK while started tunes the receiver to
      96300 Hz, while the view shows 96300 kHz (96.3 MHz); the corrected handler tunes it to
      96300000 Hz. */
  lemma StationCFMKTuning(v: View, rx: Receiver)
    requires v.started && Wired(rx) && Whole(rx.audio.rate) && rx.audio.rate >= 1.0
    ensures var cfmk := SeedStations(SEED_BANDS)[0];
            var asWritten := ApplyAll(rx, SetToStation(v, Some(cfmk)).sent);
            var corrected := ApplyAll(rx, SetToStationCorrected(v, Some(cfmk)).sent);
            && SetToStation(v, Some(cfmk)).view.frequency == 96300.0
            && asWritten.Success? && asWritten.value.tuneHz == Some(96300.0)
            && corrected.Success? && corrected.value.tuneHz == Some(96300000.0)
  {
    var cfmk := SeedStations(SEED_BANDS)[0];
    assert cfmk.frequency == 96300.0 && cfmk.demodulator == Some("FM");
    var asWritten := SetToStation(v, Some(cfmk));
    assert asWritten.sent == [Tune(96300.0), Demodulate("FM")];
    var corrected := SetToStationCorrected(v, Some(cfmk));
    assert corrected.sent == [Tune(96300000.0), Demodulate("FM")];
    StationTunes(rx, asWritten.sent, 96300.0);
    StationTunes(rx, corrected.sent, 96300000.0);
  }
}

=== FILE: AudioDemodulator.dfy ===
/** The demodulator assemblies of sdrplay1/AudioDemodulator.swift: a null demodulator that
    builds nothing, and FM and AM chains that each build four stages on the producer and feed
    the audio sink from the last one.

    Both chains have the same shape: a complex rate converter from the producer's rate down
    to five times the audio rate, a detector, a real rate converter down to the audio rate,
    and a finishing stage. `BuildChain` builds that shape once; `PlanFor` supplies what
    differs between FM and AM. */
module AudioDemodulator {
  import opened Wrappers
  import opened StreamGraph

  datatype Kind = NullDemod | AM | FM

  /** A built demodulator: its kind and its stages in chain order. `Head` is the stage the
      owner disconnects from the producer; `Tail` is the stage feeding the audio sink. */
  datatype Assembly = Assembly(kind: Kind, stages: seq<NodeId>) {

    function Head(): Option<NodeId> {
      if |stages| == 0 then None else Some(stages[0])
    }

    function Tail(): Option<NodeId> {
      if |stages| == 0 then None else Some(stages[|stages| - 1])
    }

    /** The producer-side connection the assembly owns: its head, if it has one. */
    function HeadSet(): set<NodeId> {
      if |stages| == 0 then {} else {stages[0]}
    }
  }

  /** The AudioOutput: its sample rate, fixed at construction, and the node it pulls from. */
  datatype AudioSink = AudioSink(rate: real, feed: Option<NodeId>)

  /** `BadRatio`: a rate converter was given a non-positive factor (assumed to fail in
      sdrlib). `RateMismatch`: the construction assertion that the tail runs at the audio
      rate does not hold. */
  datatype BuildError = BadRatio(up: int, down: int) | RateMismatch(tailRate: real, audioRate: real)

  datatype Built = Built(graph: Graph, audio: AudioSink, assembly: Assembly)

  // FMDemodulator's constants
  const FREQUENCY_DEVIATION := 75000
  const DEEMPHASIS_TIME := 0.000075
  const FM_AUDIO_FILTER_HZ := 15000
  const FM_MODULATION_FACTOR := 0.5

  // AMDemodulator's constants
  const AM_BANDWIDTH := 10000
  const AM_AUDIO_FILTER_HZ := 5000
  const AM_ENVELOPE_FACTOR := 5.0
  const AGC_GAIN := 1000.0

  // Shared by both chains: the intermediate rate is the audio rate times this factor,
  // and every rate converter has this half-length.
  const DOWN_SAMPLE_FACTOR := 5
  const HALF_LENGTH := 15

  /** What distinguishes one chain from the other: the cutoff (in Hz) of the first rate
      converter, the detector, the cutoff (in Hz) of the second converter, the finisher. */
  datatype Plan = Plan(iqCutoffHz: real, detector: Stage, afCutoffHz: real, finisher: Stage)

  predicate ChainPlan(p: Plan) {
    && p.detector.Input() == Some(Complex) && p.detector.Output() == Some(Real)
    && p.finisher.Input() == Some(Real) && p.finisher.Output() == Some(Real)
  }

  function PlanFor(kind: Kind): (p: Plan)
    requires kind != NullDemod
    ensures ChainPlan(p)
  {
    match kind
    case FM => Plan(FREQUENCY_DEVIATION as real, FMDiscriminator(FM_MODULATION_FACTOR),
                    FM_AUDIO_FILTER_HZ as real, Deemphasis(DEEMPHASIS_TIME))
    case AM => Plan(AM_BANDWIDTH as real, EnvelopeDetector(AM_ENVELOPE_FACTOR),
                    AM_AUDIO_FILTER_HZ as real, GainControl(AGC_GAIN))
  }

  /** Whether the rate plan closes, given the audio rate and the producer's rate: every
      rate-converter factor is positive and the tail's rate, producer * Int(audio) /
      Int(producer), equals the audio rate. */
  predicate Buildable(audioHz: real, sourceHz: real) {
    && Truncate(audioHz * DOWN_SAMPLE_FACTOR as real) > 0
    && Truncate(sourceHz) > 0
    && Truncate(audioHz) > 0
    && sourceHz * Truncate(audioHz) as real == audioHz * Truncate(sourceHz) as real
  }

  /** A rate is a whole number of Hz. */
  predicate Whole(x: real) {
    x == x.Floor as real
  }

  /** Two rate converters in series, the second undoing the first one's interpolation,
      reach the audio rate exactly when producer * up2 == audio * down1. */
  lemma SeriesRate(sourceHz: real, up1: int, down1: int, up2: int, audioHz: real)
    requires up1 > 0 && down1 > 0
    ensures ConvertedRate(ConvertedRate(sourceHz, up1, down1), up2, up1) == audioHz
            <==> sourceHz * up2 as real == audioHz * down1 as real
  {
    var u1, d1, u2 := up1 as real, down1 as real, up2 as real;
    var rate1 := sourceHz * u1 / d1;
    calc {
      rate1 * u2 / u1;
      (sourceHz * u1 / d1) * u2 / u1;
      { assert (sourceHz * u1 / d1) * u2 == (sourceHz * u2 / d1) * u1; }
      (sourceHz * u2 / d1) * u1 / u1;
      sourceHz * u2 / d1;
    }
    DividedEquals(sourceHz * u2, d1, audioHz);
  }

  lemma DividedEquals(x: real, d: real, a: real)
    requires d > 0.0
    ensures x / d == a <==> x == a * d
  {
  }

  lemma WholeRatesAreBuildable(audioHz: real, sourceHz: real)
    requires Whole(audioHz) && audioHz >= 1.0
    requires Whole(sourceHz) && sourceHz >= 1.0
    ensures Buildable(audioHz, sourceHz)
  {
    assert Truncate(audioHz) as real == audioHz;
    assert Truncate(sourceHz) as real == sourceHz;
    assert audioHz * DOWN_SAMPLE_FACTOR as real >= 5.0;
  }

  /** The factors and rates of the two rate converters of a chain: the first converts the
      producer's rate by up1 / down1 to `downSampleHz`, the second by up2 / up1 to the
      tail rate. */
  datatype RatePlan = RatePlan(downSampleHz: real, up1: int, down1: int, up2: int, rate1: real, rate2: real)

  /** The rate arithmetic of both constructors, including the construction assertion that
      the tail runs at the audio rate. */
  function PlanRates(audioHz: real, sourceHz: real): (r: Result<RatePlan, BuildError>)
    ensures r.Success? <==> Buildable(audioHz, sourceHz)
    ensures r.Success? ==>
              && r.value.downSampleHz == audioHz * DOWN_SAMPLE_FACTOR as real
              && r.value.up1 == Truncate(r.value.downSampleHz) > 0
              && r.value.down1 == Truncate(sourceHz) > 0
              && r.value.up2 == Truncate(audioHz) > 0
              && r.value.rate1 == ConvertedRate(sourceHz, r.value.up1, r.value.down1)
              && r.value.rate2 == ConvertedRate(r.value.rate1, r.value.up2, r.value.up1)
              && r.value.rate2 == audioHz
  {
    var downSampleHz := audioHz * DOWN_SAMPLE_FACTOR as real;
    var up1 := Truncate(downSampleHz);
    var down1 := Truncate(sourceHz);
    var up2 := Truncate(audioHz);
    if up1 <= 0 || down1 <= 0 then Failure(BadRatio(up1, down1))
    else if up2 <= 0 then Failure(BadRatio(up2, up1))
    else
      var rate1 := ConvertedRate(sourceHz, up1, down1);
      var rate2 := ConvertedRate(rate1, up2, up1);
      SeriesRate(sourceHz, up1, down1, up2, audioHz);
      if rate2 != audioHz then Failure(RateMismatch(rate2, audioHz))
      else Success(RatePlan(downSampleHz, up1, down1, up2, rate1, rate2))
  }

  /** The new stages of `b` are four freshly drawn, distinct nodes forming a typed path
      from `source`. */
  predicate Linked(g: Graph, source: NodeId, b: Built) {
    var s := b.assembly.stages;
    && WellFormed(b.graph)
    && |s| == 4
    && g.nextId <= s[0] < s[1] < s[2] < s[3]
    && Feeds(b.graph, source, s[0])
    && Feeds(b.graph, s[0], s[1]) && Feeds(b.graph, s[1], s[2]) && Feeds(b.graph, s[2], s[3])
  }

  /** Relative to `g` and `audio`, `source` gains exactly the head of `b` as a sink, no
      other existing node changes, and the tail produces real samples at exactly the audio
      rate and is the audio sink's feed. */
  predicate Framed(g: Graph, source: NodeId, audio: AudioSink, b: Built) {
    var s := b.assembly.stages;
    && |s| == 4 && s[3] in b.graph.nodes
    && (forall id :: id in g.nodes ==> id in b.graph.nodes && b.graph.nodes[id] == g.nodes[id])
    && source in g.sinks && source in b.graph.sinks && b.graph.sinks[source] == g.sinks[source] + {s[0]}
    && (forall id :: id in g.sinks && id != source ==> id in b.graph.sinks && b.graph.sinks[id] == g.sinks[id])
    && b.graph.nodes[s[3]].stage.Output() == Some(Real)
    && b.graph.nodes[s[3]].rate == audio.rate
    && b.audio == audio.(feed := Some(s[3]))
  }

  /** What a successful FM or AM construction leaves behind, relative to the graph `g` and
      audio sink `audio` it started from. */
  predicate Attached(g: Graph, source: NodeId, audio: AudioSink, b: Built) {
    Linked(g, source, b) && Framed(g, source, audio, b)
  }

  /** The stages of `b`, in order, are those of plan `p` with the factors and rates of `rp`. */
  predicate FollowsPlan(b: Built, p: Plan, rp: RatePlan, audioHz: real) {
    var n, s := b.graph.nodes, b.assembly.stages;
    && |s| == 4 && s[0] in n && s[1] in n && s[2] in n && s[3] in n
    && rp.downSampleHz != 0.0 && audioHz != 0.0
    && n[s[0]] == Node(RateConverter(Complex, rp.up1, rp.down1, HALF_LENGTH, p.iqCutoffHz / rp.downSampleHz, Blackman), rp.rate1)
    && n[s[1]] == Node(p.detector, rp.rate1)
    && n[s[2]] == Node(RateConverter(Real, rp.up2, rp.up1, HALF_LENGTH, p.afCutoffHz / audioHz, Blackman), rp.rate2)
    && n[s[3]] == Node(p.finisher, rp.rate2)
  }

  /** The four stages of `p` built on `source` in order, with the factors and rates of `rp`,
      and the audio sink connected to the last one. */
  function Stages(kind: Kind, g: Graph, source: NodeId, audio: AudioSink, p: Plan, rp: RatePlan): (b: Built)
    requires WellFormed(g) && source in g.nodes && g.nodes[source].stage.Output() == Some(Complex)
    requires ChainPlan(p)
    requires rp.downSampleHz != 0.0 && audio.rate != 0.0
    ensures b.assembly.kind == kind && |b.assembly.stages| == 4
  {
    var (g1, iq) := AddStage(g, source,
      RateConverter(Complex, rp.up1, rp.down1, HALF_LENGTH, p.iqCutoffHz / rp.downSampleHz, Blackman), rp.rate1);
    var (g2, detected) := AddStage(g1, iq, p.detector, rp.rate1);
    var (g3, af) := AddStage(g2, detected,
      RateConverter(Real, rp.up2, rp.up1, HALF_LENGTH, p.afCutoffHz / audio.rate, Blackman), rp.rate2);
    var (g4, last) := AddStage(g3, af, p.finisher, rp.rate2);
    Built(g4, audio.(feed := Some(last)), Assembly(kind, [iq, detected, af, last]))
  }

  lemma StagesLinked(kind: Kind, g: Graph, source: NodeId, audio: AudioSink, p: Plan, rp: RatePlan)
    requires WellFormed(g) && source in g.nodes && g.nodes[source].stage.Output() == Some(Complex)
    requires ChainPlan(p)
    requires rp.downSampleHz != 0.0 && audio.rate != 0.0
    ensures Linked(g, source, Stages(kind, g, source, audio, p, rp))
  {
    var conv1 := RateConverter(Complex, rp.up1, rp.down1, HALF_LENGTH, p.iqCutoffHz / rp.downSampleHz, Blackman);
    var conv2 := RateConverter(Real, rp.up2, rp.up1, HALF_LENGTH, p.afCutoffHz / audio.rate, Blackman);
    var (g1, iq) := AddStage(g, source, conv1, rp.rate1);
    var (g2, detected) := AddStage(g1, iq, p.detector, rp.rate1);
    var (g3, af) := AddStage(g2, detected, conv2, rp.rate2);
    var (g4, last) := AddStage(g3, af, p.finisher, rp.rate2);
    assert Stages(kind, g, source, audio, p, rp).graph == g4;
    AddStageKeepsFeeds(g1, iq, p.detector, rp.rate1, source, iq);
    AddStageKeepsFeeds(g2, detected, conv2, rp.rate2, source, iq);
    AddStageKeepsFeeds(g2, detected, conv2, rp.rate2, iq, detected);
    AddStageKeepsFeeds(g3, af, p.finisher, rp.rate2, source, iq);
    AddStageKeepsFeeds(g3, af, p.finisher, rp.rate2, iq, detected);
    AddStageKeepsFeeds(g3, af, p.finisher, rp.rate2, detected, af);
  }

  lemma StagesFramed(kind: Kind, g: Graph, source: NodeId, audio: AudioSink, p: Plan, rp: RatePlan)
    requires WellFormed(g) && source in g.nodes && g.nodes[source].stage.Output() == Some(Complex)
    requires ChainPlan(p)
    requires rp.downSampleHz != 0.0 && audio.rate != 0.0 && rp.rate2 == audio.rate
    ensures Framed(g, source, audio, Stages(kind, g, source, audio, p, rp))
  {
  }

  lemma StagesFollowPlan(kind: Kind, g: Graph, source: NodeId, audio: AudioSink, p: Plan, rp: RatePlan)
    requires WellFormed(g) && source in g.nodes && g.nodes[source].stage.Output() == Some(Complex)
    requires ChainPlan(p)
    requires rp.downSampleHz != 0.0 && audio.rate != 0.0
    ensures FollowsPlan(Stages(kind, g, source, audio, p, rp), p, rp, audio.rate)
  {
  }

  /** Builds the four stages of `p` on `source` with the factors and rates of `rp`, and
      connects the audio sink to the last one. */
  function Assemble(kind: Kind, g: Graph, source: NodeId, audio: AudioSink, p: Plan, rp: RatePlan): (b: Built)
    requires WellFormed(g) && source in g.nodes && g.nodes[source].stage.Output() == Some(Complex)
    requires ChainPlan(p)
    requires rp.downSampleHz != 0.0 && audio.rate != 0.0 && rp.rate2 == audio.rate
    ensures b.assembly.kind == kind && Attached(g, source, audio, b)
    ensures FollowsPlan(b, p, rp, audio.rate)
  {
    StagesLinked(kind, g, source, audio, p, rp);
    StagesFramed(kind, g, source, audio, p, rp);
    StagesFollowPlan(kind, g, source, audio, p, rp);
    Stages(kind, g, source, audio, p, rp)
  }

  /** With whole-Hz rates the converters use factors 5 * audio / producer and
      audio / (5 * audio), and the intermediate rate is exactly 5 * audio. */
  lemma WholeRatePlan(audioHz: real, sourceHz: real)
    requires Whole(audioHz) && audioHz >= 1.0
    requires Whole(sourceHz) && sourceHz >= 1.0
    ensures PlanRates(audioHz, sourceHz)
            == Success(RatePlan(5.0 * audioHz, (5.0 * audioHz).Floor, sourceHz.Floor, audioHz.Floor, 5.0 * audioHz, audioHz))
  {
    var n, m := audioHz.Floor, sourceHz.Floor;
    assert Truncate(audioHz) == n && Truncate(sourceHz) == m;
    assert n as real == audioHz && m as real == sourceHz;
    assert (5 * n) as real == 5.0 * audioHz;
    assert Truncate(5.0 * audioHz) == 5 * n;
    MulDivCancel(5.0 * audioHz, sourceHz);
    assert ConvertedRate(sourceHz, 5 * n, m) == 5.0 * audioHz;
    MulDivCancel(audioHz, 5.0 * audioHz);
    assert ConvertedRate(5.0 * audioHz, n, 5 * n) == audioHz;
  }

  /** Multiplying by a positive factor and dividing by it again is the identity. */
  lemma MulDivCancel(x: real, k: real)
    requires k > 0.0
    ensures k * x / k == x && x * k / k == x
  {
  }

  /** The FM or AM constructor: plans the rates, then builds the chain. */
  function BuildChain(kind: Kind, g: Graph, source: NodeId, audio: AudioSink, p: Plan): (r: Result<Built, BuildError>)
    requires WellFormed(g) && source in g.nodes && g.nodes[source].stage.Output() == Some(Complex)
    requires ChainPlan(p)
    ensures r.Success? <==> Buildable(audio.rate, g.nodes[source].rate)
    ensures r.Success? ==> r.value.assembly.kind == kind && Attached(g, source, audio, r.value)
    ensures r.Success? ==> FollowsPlan(r.value, p, PlanRates(audio.rate, g.nodes[source].rate).value, audio.rate)
  {
    var rp :- PlanRates(audio.rate, g.nodes[source].rate);
    Success(Assemble(kind, g, source, audio, p, rp))
  }

  /** `AudioDemodulator.self.init`, `AMDemodulator.self.init` or `FMDemodulator.self.init`,
      chosen by `kind`. The null demodulator connects nothing and has no head. */
  function Build(kind: Kind, g: Graph, source: NodeId, audio: AudioSink): (r: Result<Built, BuildError>)
    requires WellFormed(g) && source in g.nodes && g.nodes[source].stage.Output() == Some(Complex)
    ensures r.Success? ==> r.value.assembly.kind == kind && r.value.audio.rate == audio.rate
    ensures kind == NullDemod ==>
              && r.Success?
              && r.value.graph == g && r.value.audio == audio
              && r.value.assembly.Head() == None && r.value.assembly.Tail() == None
    ensures kind != NullDemod ==> (r.Success? <==> Buildable(audio.rate, g.nodes[source].rate))
    ensures kind != NullDemod && r.Success? ==> Attached(g, source, audio, r.value)
  {
    if kind == NullDemod then Success(Built(g, audio, Assembly(NullDemod, [])))
    else BuildChain(kind, g, source, audio, PlanFor(kind))
  }

  /** A successful FM or AM construction follows its kind's plan at the planned rates. */
  lemma BuildFollowsPlan(kind: Kind, g: Graph, source: NodeId, audio: AudioSink)
    requires kind != NullDemod
    requires WellFormed(g) && source in g.nodes && g.nodes[source].stage.Output() == Some(Complex)
    requires Build(kind, g, source, audio).Success?
    ensures PlanRates(audio.rate, g.nodes[source].rate).Success?
    ensures FollowsPlan(Build(kind, g, source, audio).value, PlanFor(kind),
                        PlanRates(audio.rate, g.nodes[source].rate).value, audio.rate)
  {
  }

  /** With whole-Hz rates a chain builds and follows the rate plan of `PlanRates`. */
  lemma ChainFollowsPlan(kind: Kind, g: Graph, source: NodeId, audio: AudioSink)
    requires kind != NullDemod
    requires WellFormed(g) && source in g.nodes && g.nodes[source].stage.Output() == Some(Complex)
    requires Whole(audio.rate) && audio.rate >= 1.0
    requires Whole(g.nodes[source].rate) && g.nodes[source].rate >= 1.0
    ensures Build(kind, g, source, audio).Success?
    ensures PlanRates(audio.rate, g.nodes[source].rate).Success?
    ensures FollowsPlan(Build(kind, g, source, audio).value, PlanFor(kind),
                        PlanRates(audio.rate, g.nodes[source].rate).value, audio.rate)
  {
    WholeRatesAreBuildable(audio.rate, g.nodes[source].rate);
    BuildFollowsPlan(kind, g, source, audio);
  }

  /** The stages of `b`, in order, are those of plan `p` for whole-Hz rates: they run at
      5 * audio, 5 * audio, audio and audio Hz; the converters use factors
      5 * audio / producer and audio / (5 * audio), half-length 15 and a Blackman window,
      with cutoffs given as fractions of their output rate. */
  predicate WholeRateStages(b: Built, p: Plan, audioHz: real, sourceHz: real) {
    var n, s := b.graph.nodes, b.assembly.stages;
    && |s| == 4 && s[0] in n && s[1] in n && s[2] in n && s[3] in n
    && audioHz != 0.0
    && n[s[0]] == Node(RateConverter(Complex, (5.0 * audioHz).Floor, sourceHz.Floor, HALF_LENGTH,
                                     p.iqCutoffHz / (5.0 * audioHz), Blackman), 5.0 * audioHz)
    && n[s[1]] == Node(p.detector, 5.0 * audioHz)
    && n[s[2]] == Node(RateConverter(Real, audioHz.Floor, (5.0 * audioHz).Floor, HALF_LENGTH,
                                     p.afCutoffHz / audioHz, Blackman), audioHz)
    && n[s[3]] == Node(p.finisher, audioHz)
  }

  lemma FollowsWholeRatePlan(b: Built, p: Plan, rp: RatePlan, audioHz: real, sourceHz: real)
    requires FollowsPlan(b, p, rp, audioHz)
    requires rp.downSampleHz == 5.0 * audioHz && rp.rate1 == 5.0 * audioHz && rp.rate2 == audioHz
    requires rp.up1 == (5.0 * audioHz).Floor && rp.down1 == sourceHz.Floor && rp.up2 == audioHz.Floor
    ensures WholeRateStages(b, p, audioHz, sourceHz)
  {}

  /** With whole-Hz rates a chain builds, and its stages are those of its plan at the rates
      and factors `WholeRateStages` gives. */
  lemma ChainStages(kind: Kind, g: Graph, source: NodeId, audio: AudioSink)
    requires kind != NullDemod
    requires WellFormed(g) && source in g.nodes && g.nodes[source].stage.Output() == Some(Complex)
    requires Whole(audio.rate) && audio.rate >= 1.0
    requires Whole(g.nodes[source].rate) && g.nodes[source].rate >= 1.0
    ensures Build(kind, g, source, audio).Success?
    ensures WholeRateStages(Build(kind, g, source, audio).value, PlanFor(kind), audio.rate, g.nodes[source].rate)
  {
    var a, sourceHz := audio.rate, g.nodes[source].rate;
    ChainFollowsPlan(kind, g, source, audio);
    WholeRatePlan(a, sourceHz);
    FollowsWholeRatePlan(Build(kind, g, source, audio).value, PlanFor(kind), PlanRates(a, sourceHz).value, a, sourceHz);
  }

  /** FM: downsample IQ to 5 * audio with a 75 kHz deviation cutoff, discriminate with
      modulation factor 0.5, downsample to audio with a 15 kHz cutoff, de-emphasise with a
      75 microsecond time constant. */
  lemma FMStageOrder(g: Graph, source: NodeId, audio: AudioSink)
    requires WellFormed(g) && source in g.nodes && g.nodes[source].stage.Output() == Some(Complex)
    requires Whole(audio.rate) && audio.rate >= 1.0
    requires Whole(g.nodes[source].rate) && g.nodes[source].rate >= 1.0
    ensures var r := Build(FM, g, source, audio);
            var a := audio.rate;
            && r.Success?
            && var n, s := r.value.graph.nodes, r.value.assembly.stages;
               && n[s[0]].stage.RateConverter? && n[s[0]].stage.samples == Complex
               && n[s[0]].stage.cutoff == 75000.0 / (5.0 * a) && n[s[0]].rate == 5.0 * a
               && n[s[1]].stage == FMDiscriminator(0.5) && n[s[1]].rate == 5.0 * a
               && n[s[2]].stage.RateConverter? && n[s[2]].stage.samples == Real
               && n[s[2]].stage.cutoff == 15000.0 / a && n[s[2]].rate == a
               && n[s[3]].stage == Deemphasis(0.000075) && n[s[3]].rate == a
  {
    ChainStages(FM, g, source, audio);
    var b := Build(FM, g, source, audio).value;
    assert WholeRateStages(b, PlanFor(FM), audio.rate, g.nodes[source].rate);
  }

  /** AM: downsample IQ to 5 * audio with a 10 kHz bandwidth cutoff, envelope-detect with
      factor 5, downsample to audio with a 5 kHz cutoff, apply gain control with gain 1000. */
  lemma AMStageOrder(g: Graph, source: NodeId, audio: AudioSink)
    requires WellFormed(g) && source in g.nodes && g.nodes[source].stage.Output() == Some(Complex)
    requires Whole(audio.rate) && audio.rate >= 1.0
    requires Whole(g.nodes[source].rate) && g.nodes[source].rate >= 1.0
    ensures var r := Build(AM, g, source, audio);
            var a := audio.rate;
            && r.Success?
            && var n, s := r.value.graph.nodes, r.value.assembly.stages;
               && n[s[0]].stage.RateConverter? && n[s[0]].stage.samples == Complex
               && n[s[0]].stage.cutoff == 10000.0 / (5.0 * a) && n[s[0]].rate == 5.0 * a
               && n[s[1]].stage == EnvelopeDetector(5.0) && n[s[1]].rate == 5.0 * a
               && n[s[2]].stage.RateConverter? && n[s[2]].stage.samples == Real
               && n[s[2]].stage.cutoff == 5000.0 / a && n[s[2]].rate == a
               && n[s[3]].stage == GainControl(1000.0) && n[s[3]].rate == a
  {
    ChainStages(AM, g, source, audio);
    var b := Build(AM, g, source, audio).value;
    assert WholeRateStages(b, PlanFor(AM), audio.rate, g.nodes[source].rate);
  }

  /** An audio device running at a fractional rate breaks the rate plan: Int() truncation
      of 5 * 44100.5 Hz leaves the tail at 44100 Hz, and construction fails its assertion. */
  lemma FractionalAudioRateFails(g: Graph, source: NodeId)
    requires WellFormed(g) && source in g.nodes && g.nodes[source].stage.Output() == Some(Complex)
    requires g.nodes[source].rate == 2205025.0
    ensures Build(FM, g, source, AudioSink(44100.5, None)).Failure?
  {
    assert Truncate(44100.5) == 44100;
  }
}

=== FILE: ContentView.dfy ===
/** The tuning controls of sdrplay1/ContentView.swift: the view's state and the commands its
    handlers send to the receiver.

    Each handler is a function from the state before to a `Reaction`: the state after and
    the receiver commands sent, in order. A picker is the user changing the bound state,
    followed by the change handlers of every bound value that changed (`OnChange`). The
    frequency shown is in kHz; the receiver is tuned in Hz. */
module ContentView {
  import opened Wrappers
  import opened Presets
  import opened ReceiveThread

  const KHZ := 1000.0

  // AppKit's function-key codes for the up and down arrows.
  const UP_ARROW_KEY := 0xF700
  const DOWN_ARROW_KEY := 0xF701

  const INITIAL_STEP := 200.0
  const INITIAL_DEMODULATOR := "FM"

  datatype View = View(frequency: real, frequencyStep: real, started: bool, demodulator: string,
                       antenna: string, gain: int, selectedBand: Option<Band>,
                       selectedStation: Option<Station>, frequencyFocused: bool)

  datatype Reaction = Reaction(view: View, sent: seq<Command>)

  /** The view as constructed: the given frequency, antenna and gain, a 200 kHz step, FM,
      stopped, nothing selected. */
  function Initial(frequency: real, antenna: string, gain: int): (v: View)
    ensures v.frequency == frequency && v.antenna == antenna && v.gain == gain
    ensures v.frequencyStep == INITIAL_STEP && v.demodulator == INITIAL_DEMODULATOR && !v.started
    ensures v.selectedBand == None && v.selectedStation == None
  {
    View(frequency, INITIAL_STEP, false, INITIAL_DEMODULATOR, antenna, gain, None, None, false)
  }

  /** Every tuning command sent tunes the receiver to the frequency the view shows after the
      reaction, converted from kHz to Hz. */
  predicate TunesToView(r: Reaction) {
    forall i :: 0 <= i < |r.sent| ==> r.sent[i].Tune? ==> r.sent[i].hz == r.view.frequency * KHZ
  }

  /** The frequency commands of `cs`, in order. */
  function Tunings(cs: seq<Command>): (r: seq<real>)
    ensures |r| <= |cs|
    ensures (forall i :: 0 <= i < |cs| ==> !cs[i].Tune?) ==> r == []
    ensures forall hz :: hz in r <==> Tune(hz) in cs
  {
    if |cs| == 0 then []
    else if cs[0].Tune? then [cs[0].hz] + Tunings(cs[1..])
    else Tunings(cs[1..])
  }

  lemma {:induction false} TuningsAppend(a: seq<Command>, b: seq<Command>)
    ensures Tunings(a + b) == Tunings(a) + Tunings(b)
    decreases |a|
  {
    if |a| == 0 {
      assert a + b == b;
    } else {
      assert (a + b)[1..] == a[1..] + b;
      TuningsAppend(a[1..], b);
    }
  }

  /** Submitting the frequency field tunes to the shown frequency. */
  function SubmitFrequency(v: View): (r: Reaction)
    ensures r.view == v && TunesToView(r)
    ensures Tunings(r.sent) == [v.frequency * KHZ]
    ensures r.sent == [Tune(v.frequency * KHZ)]
  {
    Reaction(v, [Tune(v.frequency * KHZ)])
  }

  /** The up button: unfocus the field, step the frequency up, tune to it. */
  function StepUp(v: View): (r: Reaction)
    ensures r.view == v.(frequency := r.view.frequency, frequencyFocused := false)
    ensures r.view.frequency == v.frequency + v.frequencyStep
    ensures TunesToView(r) && |r.sent| == 1 && r.sent[0].Tune?
  {
    var w := v.(frequencyFocused := false, frequency := v.frequency + v.frequencyStep);
    Reaction(w, [Tune(w.frequency * KHZ)])
  }

  /** The down button: unfocus the field, step the frequency down, tune to it. */
  function StepDown(v: View): (r: Reaction)
    ensures r.view == v.(frequency := r.view.frequency, frequencyFocused := false)
    ensures r.view.frequency == v.frequency - v.frequencyStep
    ensures TunesToView(r) && |r.sent| == 1 && r.sent[0].Tune?
  {
    var w := v.(frequencyFocused := false, frequency := v.frequency - v.frequencyStep);
    Reaction(w, [Tune(w.frequency * KHZ)])
  }

  /** A key press, given the first UTF-16 unit of its characters (None when it has none):
      the arrow keys act as the step buttons; anything else changes nothing. */
  function KeyDown(v: View, firstUnit: Option<int>): (r: Reaction)
    ensures firstUnit == Some(UP_ARROW_KEY) ==> r == StepUp(v)
    ensures firstUnit == Some(DOWN_ARROW_KEY) ==> r == StepDown(v)
    ensures firstUnit != Some(UP_ARROW_KEY) && firstUnit != Some(DOWN_ARROW_KEY) ==> r == Reaction(v, [])
    ensures TunesToView(r)
  {
    match firstUnit
    case None => Reaction(v, [])
    case Some(c) =>
      if c == UP_ARROW_KEY then StepUp(v)
      else if c == DOWN_ARROW_KEY then StepDown(v)
      else Reaction(v, [])
  }

  /** The start toggle's change handler, when `started` changed: starting tunes to the shown
      frequency first; stopping only stops. */
  function ToggleHandler(before: View, after: View): (cs: seq<Command>)
    ensures before.started == after.started <==> cs == []
    ensures Start in cs <==> !before.started && after.started
    ensures Stop in cs <==> before.started && !after.started
    ensures !before.started && after.started ==> cs == [Tune(after.frequency * KHZ), Start]
    ensures before.started && !after.started ==> cs == [Stop]
  {
    if before.started == after.started then []
    else if after.started then [Tune(after.frequency * KHZ), Start]
    else [Stop]
  }

  /** The demodulator, antenna and gain pickers' change handlers, in that order, for each
      value that changed: each forwards the new value to the receiver. */
  function SettingHandlers(before: View, after: View): (cs: seq<Command>)
    ensures cs == [] <==>
              before.demodulator == after.demodulator && before.antenna == after.antenna
              && before.gain == after.gain
    ensures Demodulate(after.demodulator) in cs <==> before.demodulator != after.demodulator
    ensures SelectAntenna(after.antenna) in cs <==> before.antenna != after.antenna
    ensures SelectGain(after.gain) in cs <==> before.gain != after.gain
    ensures forall i :: 0 <= i < |cs| ==> !cs[i].Tune? && !cs[i].Start? && !cs[i].Stop?
  {
    var d := if before.demodulator == after.demodulator then [] else [Demodulate(after.demodulator)];
    var a := if before.antenna == after.antenna then [] else [SelectAntenna(after.antenna)];
    var g := if before.gain == after.gain then [] else [SelectGain(after.gain)];
    d + a + g
  }

  /** The change handlers of the start toggle and the three pickers, in the order the view
      declares them, for each of those values that differs between `before` and `after`.
      Starting tunes to the shown frequency first. */
  function OnChange(before: View, after: View): (cs: seq<Command>)
    ensures TunesToView(Reaction(after, cs))
    ensures cs == [] <==>
              (before.started == after.started && before.demodulator == after.demodulator
               && before.antenna == after.antenna && before.gain == after.gain)
    ensures Demodulate(after.demodulator) in cs <==> before.demodulator != after.demodulator
    ensures SelectAntenna(after.antenna) in cs <==> before.antenna != after.antenna
    ensures SelectGain(after.gain) in cs <==> before.gain != after.gain
    ensures Start in cs <==> !before.started && after.started
    ensures Stop in cs <==> before.started && !after.started
  {
    var t, rest := ToggleHandler(before, after), SettingHandlers(before, after);
    t + rest
  }

  /** The start handler runs first: a start is preceded by a tuning to the shown frequency,
      a stop comes first, and when the toggle did not change nothing tunes. */
  lemma OnChangeOrder(before: View, after: View)
    ensures var cs := OnChange(before, after);
            && (!before.started && after.started ==>
                  |cs| >= 2 && cs[..2] == [Tune(after.frequency * KHZ), Start])
            && (before.started && !after.started ==> cs[0] == Stop)
            && (before.started == after.started ==> forall i :: 0 <= i < |cs| ==> !cs[i].Tune?)
  {
    var t, rest := ToggleHandler(before, after), SettingHandlers(before, after);
    assert OnChange(before, after) == t + rest;
    if !before.started && after.started {
      assert (t + rest)[..2] == t;
    }
  }

  /** The user changes a bound value; its change handler (if the value changed) reacts. */
  function Changed(v: View, w: View): (r: Reaction)
    ensures r.view == w && TunesToView(r)
    ensures r.sent == OnChange(v, w)
  {
    Reaction(w, OnChange(v, w))
  }

  /** The start/stop toggle. */
  function ToggleStart(v: View): (r: Reaction)
    ensures r.view == v.(started := !v.started)
    ensures TunesToView(r)
    ensures r.view.started ==> Tunings(r.sent) == [v.frequency * KHZ] && r.sent[|r.sent| - 1] == Start
    ensures r.view.started ==> r.sent == [Tune(v.frequency * KHZ), Start]
    ensures !r.view.started ==> r.sent == [Stop]
  {
    Changed(v, v.(started := !v.started))
  }

  /** The demodulator picker: a new key is forwarded to the receiver. */
  function PickDemodulator(v: View, key: string): (r: Reaction)
    ensures r.view == v.(demodulator := key)
    ensures key != v.demodulator ==> r.sent == [Demodulate(key)]
    ensures key == v.demodulator ==> r.sent == []
  {
    Changed(v, v.(demodulator := key))
  }

  /** The antenna picker. */
  function PickAntenna(v: View, name: string): (r: Reaction)
    ensures r.view == v.(antenna := name)
    ensures name != v.antenna ==> r.sent == [SelectAntenna(name)]
    ensures name == v.antenna ==> r.sent == []
  {
    Changed(v, v.(antenna := name))
  }

  /** The gain picker. */
  function PickGain(v: View, gain: int): (r: Reaction)
    ensures r.view == v.(gain := gain)
    ensures gain != v.gain ==> r.sent == [SelectGain(gain)]
    ensures gain == v.gain ==> r.sent == []
  {
    Changed(v, v.(gain := gain))
  }

  /** Strict lexicographic order on strings by character code. */
  predicate Before(a: string, b: string) {
    if |a| == 0 then |b| > 0
    else if |b| == 0 then false
    else a[0] < b[0] || (a[0] == b[0] && Before(a[1..], b[1..]))
  }

  /** The demodulator picker's choices: the registry's keys, sorted. */
  function DemodulatorChoices(): (r: seq<string>)
    ensures forall key :: key in r <==> key in Registry
    ensures forall i, j :: 0 <= i < j < |r| ==> Before(r[i], r[j])
  {
    ["AM", "FM", "No demod."]
  }

  /** `setToBand`: a selected band sets the frequency and step, and the demodulator and
      antenna when it has them; no selection changes nothing. It sends nothing itself. */
  function SetToBand(v: View, band: Option<Band>): (w: View)
    ensures band.None? ==> w == v
    ensures band.Some? ==>
              && w.frequency == band.value.frequency && w.frequencyStep == band.value.step
              && w.demodulator == band.value.demodulator.GetOr(v.demodulator)
              && w.antenna == band.value.antenna.GetOr(v.antenna)
              && w == v.(frequency := w.frequency, frequencyStep := w.frequencyStep,
                         demodulator := w.demodulator, antenna := w.antenna)
  {
    match band
    case None => v
    case Some(b) =>
      var v1 := v.(frequency := b.frequency);
      var v2 := match b.demodulator case Some(d) => v1.(demodulator := d) case None => v1;
      var v3 := match b.antenna case Some(a) => v2.(antenna := a) case None => v2;
      v3.(frequencyStep := b.step)
  }

  /** The band picker: a different selection runs `setToBand`, whose demodulator and
      antenna changes are then forwarded by their change handlers. */
  function SelectBand(v: View, band: Option<Band>): (r: Reaction)
    ensures band == v.selectedBand ==> r == Reaction(v, [])
    ensures band != v.selectedBand ==> r.view == SetToBand(v, band).(selectedBand := band)
    ensures band != v.selectedBand ==> r.sent == OnChange(v.(selectedBand := band), r.view)
    ensures TunesToView(r)
  {
    if band == v.selectedBand then Reaction(v, [])
    else
      var v1 := v.(selectedBand := band);
      Changed(v1, SetToBand(v1, band))
  }

  /** The demodulator command a started `setToStation` sends after tuning: the station's
      demodulator key, when it has one. */
  function StationDemodulation(s: Station): (cs: seq<Command>)
    ensures cs == [] <==> s.demodulator.None?
    ensures s.demodulator.Some? ==> cs == [Demodulate(s.demodulator.value)]
    ensures Steady(cs) && Untuned(cs)
  {
    match s.demodulator
    case Some(d) => [Demodulate(d)]
    case None => []
  }

  /** `setToStation` as written: the station's band becomes the selected band (the closure
      does not call `setToBand` itself), then its frequency and, when it has one, its demodulator are
      shown and, only while started, sent to the receiver. The frequency is sent in kHz. */
  function SetToStation(v: View, station: Option<Station>): (r: Reaction)
    ensures station.None? ==> r == Reaction(v, [])
    ensures station.Some? ==>
              && r.view.frequency == station.value.frequency
              && r.view.selectedBand == station.value.band
              && r.view.demodulator == station.value.demodulator.GetOr(v.demodulator)
    ensures station.Some? ==>
              r.view == v.(frequency := r.view.frequency, selectedBand := r.view.selectedBand,
                           demodulator := r.view.demodulator)
    ensures !v.started ==> r.sent == []
    ensures station.Some? && v.started ==>
              r.sent == [Tune(station.value.frequency)] + StationDemodulation(station.value)
    ensures station.Some? && v.started ==>
              Tunings(r.sent) == [station.value.frequency]
              && (Demodulate(r.view.demodulator) in r.sent <==> station.value.demodulator.Some?)
  {
    match station
    case None => Reaction(v, [])
    case Some(s) =>
      var v1 := v.(selectedBand := s.band, frequency := s.frequency);
      var tune := if v.started then [Tune(v1.frequency)] else [];
      match s.demodulator
      case None => Reaction(v1, tune)
      case Some(d) =>
        Reaction(v1.(demodulator := d), tune + (if v.started then [Demodulate(d)] else []))
  }

  /** `setToStation` with the kHz-to-Hz conversion every other tuning path applies. */
  function SetToStationCorrected(v: View, station: Option<Station>): (r: Reaction)
    ensures TunesToView(r)
    ensures station.None? ==> r == Reaction(v, [])
    ensures station.Some? ==>
              && r.view.frequency == station.value.frequency
              && r.view.selectedBand == station.value.band
              && r.view.demodulator == station.value.demodulator.GetOr(v.demodulator)
    ensures station.Some? ==>
              r.view == v.(frequency := r.view.frequency, selectedBand := r.view.selectedBand,
                           demodulator := r.view.demodulator)
    ensures !v.started ==> r.sent == []
    ensures station.Some? && v.started ==>
              r.sent == [Tune(station.value.frequency * KHZ)] + StationDemodulation(station.value)
    ensures station.Some? && v.started ==>
              Tunings(r.sent) == [station.value.frequency * KHZ]
              && (Demodulate(r.view.demodulator) in r.sent <==> station.value.demodulator.Some?)
  {
    match station
    case None => Reaction(v, [])
    case Some(s) =>
      var v1 := v.(selectedBand := s.band, frequency := s.frequency);
      var tune := if v.started then [Tune(v1.frequency * KHZ)] else [];
      match s.demodulator
      case None => Reaction(v1, tune)
      case Some(d) =>
        Reaction(v1.(demodulator := d), tune + (if v.started then [Demodulate(d)] else []))
  }

  /** The view after picking a new station `s` from `v`: the station's band, when it is not
      the one shown, is applied by `setToBand` first; then the station's frequency and (when
      it has one) demodulator are shown. */
  ghost predicate StationShown(v: View, s: Station, w: View) {
    var bv := if s.band != v.selectedBand then SetToBand(v, s.band) else v;
    w == bv.(frequency := s.frequency, demodulator := s.demodulator.GetOr(bv.demodulator),
             selectedBand := s.band, selectedStation := Some(s))
  }

  /** The commands sent when picking a new station from `v`, ending at view `w`, with `hz`
      the frequency the station's handler tunes to. While started exactly one tuning, to
      `hz`, is sent. Whatever changed the shown demodulator or antenna is forwarded to the
      receiver, started or not, and nothing starts, stops or changes the gain. */
  ghost predicate StationSent(v: View, w: View, sent: seq<Command>, hz: real) {
    && Tunings(sent) == (if v.started then [hz] else [])
    && Steady(sent)
    && (w.demodulator != v.demodulator ==> Demodulate(w.demodulator) in sent)
    && (w.antenna != v.antenna ==> SelectAntenna(w.antenna) in sent)
  }

  ghost predicate StationPicked(v: View, s: Station, r: Reaction, hz: real) {
    StationShown(v, s, r.view) && StationSent(v, r.view, r.sent, hz)
  }

  /** The station picker, as written: choosing the current station again sends nothing,
      the blank entry only clears the selection, and a new station is handled by
      `PickStation`. */
  function SelectStation(v: View, station: Option<Station>): (r: Reaction)
    ensures station == v.selectedStation ==> r == Reaction(v, [])
    ensures station.None? && station != v.selectedStation ==> r == Reaction(v.(selectedStation := None), [])
    ensures station.Some? && station != v.selectedStation ==> r == PickStation(v, station.value)
  {
    if station == v.selectedStation then Reaction(v, [])
    else match station
      case None => Reaction(v.(selectedStation := None), [])
      case Some(s) => PickStation(v, s)
  }

  /** Picking the new station `s` with `setToStation` as written. The selection is stored;
      `setToStation`'s write of the selected band fires the band picker's handler
      (`SelectBand`, which runs `setToBand` and forwards its demodulator and antenna
      changes); its deferred block shows the station's frequency and demodulator, sending
      them while started; and the demodulator picker's handler then reacts to the new
      demodulator. */
  function PickStation(v: View, s: Station): (r: Reaction)
    requires Some(s) != v.selectedStation
    ensures StationPicked(v, s, r, s.frequency)
  {
    var b := SelectBand(v.(selectedStation := Some(s)), s.band);
    var c := SetToStation(b.view, Some(s));
    PickedParts(v, s, b, c, s.frequency);
    Reaction(c.view, b.sent + c.sent + OnChange(b.view, c.view))
  }

  /** The station picker with the corrected `setToStation`: every tuning it sends is to the
      shown frequency in Hz. */
  function SelectStationCorrected(v: View, station: Option<Station>): (r: Reaction)
    ensures station == v.selectedStation ==> r == Reaction(v, [])
    ensures station.None? && station != v.selectedStation ==> r == Reaction(v.(selectedStation := None), [])
    ensures station.Some? && station != v.selectedStation ==> r == PickStationCorrected(v, station.value)
    ensures TunesToView(r)
  {
    if station == v.selectedStation then Reaction(v, [])
    else match station
      case None => Reaction(v.(selectedStation := None), [])
      case Some(s) => PickStationCorrected(v, s)
  }

  /** Picking the new station `s` with the corrected `setToStation`. */
  function PickStationCorrected(v: View, s: Station): (r: Reaction)
    requires Some(s) != v.selectedStation
    ensures StationPicked(v, s, r, s.frequency * KHZ)
    ensures TunesToView(r)
  {
    var b := SelectBand(v.(selectedStation := Some(s)), s.band);
    var c := SetToStationCorrected(b.view, Some(s));
    PickedParts(v, s, b, c, s.frequency * KHZ);
    PickedTunesToView(v, s, b, c);
    Reaction(c.view, b.sent + c.sent + OnChange(b.view, c.view))
  }

  /** The three stages of a station pick: the band picker's reaction `b`, the station
      handler's reaction `c` from there, and the demodulator picker's reaction. */
  ghost predicate PickStages(v: View, s: Station, b: Reaction, c: Reaction, hz: real) {
    && Some(s) != v.selectedStation
    && b == SelectBand(v.(selectedStation := Some(s)), s.band)
    && c.view == b.view.(frequency := s.frequency, demodulator := s.demodulator.GetOr(b.view.demodulator))
    && (!v.started ==> c.sent == [])
    && (v.started ==> c.sent == [Tune(hz)] + StationDemodulation(s))
  }

  /** No command of `cs` starts, stops or changes the gain. */
  predicate Steady(cs: seq<Command>) {
    forall i :: 0 <= i < |cs| ==> !cs[i].Start? && !cs[i].Stop? && !cs[i].SelectGain?
  }

  /** No command of `cs` tunes. */
  predicate Untuned(cs: seq<Command>) {
    forall i :: 0 <= i < |cs| ==> !cs[i].Tune?
  }

  lemma SteadyConcat(a: seq<Command>, b: seq<Command>, c: seq<Command>)
    requires Steady(a) && Steady(b) && Steady(c)
    ensures Steady(a + b + c)
  {
    var ab := a + b;
    assert forall i :: 0 <= i < |ab| ==> ab[i] == if i < |a| then a[i] else b[i - |a|];
    assert forall i :: 0 <= i < |ab + c| ==> (ab + c)[i] == if i < |ab| then ab[i] else c[i - |ab|];
  }

  lemma TunesToViewConcat(w: View, a: seq<Command>, b: seq<Command>, c: seq<Command>)
    requires Untuned(a) && Untuned(c) && TunesToView(Reaction(w, b))
    ensures TunesToView(Reaction(w, a + b + c))
  {
    var ab := a + b;
    assert forall i :: 0 <= i < |ab| ==> ab[i] == if i < |a| then a[i] else b[i - |a|];
    assert forall i :: 0 <= i < |ab + c| ==> (ab + c)[i] == if i < |ab| then ab[i] else c[i - |ab|];
  }

  lemma SteadyPrefix(c: Command, cs: seq<Command>)
    requires !c.Start? && !c.Stop? && !c.SelectGain? && Steady(cs)
    ensures Steady([c] + cs)
  {
    assert forall i :: 0 < i < |[c] + cs| ==> ([c] + cs)[i] == cs[i - 1];
  }

  lemma UntunedHasNoTunings(cs: seq<Command>)
    requires Untuned(cs)
    ensures Tunings(cs) == []
  {
  }

  lemma PickedParts(v: View, s: Station, b: Reaction, c: Reaction, hz: real)
    requires PickStages(v, s, b, c, hz)
    ensures StationPicked(v, s, Reaction(c.view, b.sent + c.sent + OnChange(b.view, c.view)), hz)
  {
    PickedShown(v, s, b, c, hz);
    PickedSent(v, s, b, c, hz);
  }

  lemma PickedSent(v: View, s: Station, b: Reaction, c: Reaction, hz: real)
    requires PickStages(v, s, b, c, hz)
    ensures StationSent(v, c.view, b.sent + c.sent + OnChange(b.view, c.view), hz)
  {
    var o := OnChange(b.view, c.view);
    BandStageQuiet(v, s, b);
    StationStageQuiet(b.view, c.view);
    PickedTunings(v.started, b.sent, c.sent, o, hz, StationDemodulation(s));
    SteadyPrefix(Tune(hz), StationDemodulation(s));
    SteadyConcat(b.sent, c.sent, o);
    PickedForwards(v, s, b, c, hz);
  }

  lemma PickedShown(v: View, s: Station, b: Reaction, c: Reaction, hz: real)
    requires PickStages(v, s, b, c, hz)
    ensures StationShown(v, s, c.view)
  {
    var bv := if s.band != v.selectedBand then SetToBand(v, s.band) else v;
    assert b.view == bv.(selectedBand := s.band, selectedStation := Some(s));
  }

  /** The band stage neither tunes, starts, stops nor changes the gain. */
  lemma BandStageQuiet(v: View, s: Station, b: Reaction)
    requires b == SelectBand(v.(selectedStation := Some(s)), s.band)
    ensures b.view.started == v.started && b.view.gain == v.gain
    ensures Untuned(b.sent) && Steady(b.sent)
  {
    var v0 := v.(selectedStation := Some(s));
    if s.band != v0.selectedBand {
      assert b.sent == ToggleHandler(v0, b.view) + SettingHandlers(v0, b.view);
      assert ToggleHandler(v0, b.view) == [];
    }
  }

  /** The demodulator picker's reaction to the station stage neither tunes, starts, stops
      nor changes the gain. */
  lemma StationStageQuiet(bw: View, cw: View)
    requires cw.started == bw.started && cw.gain == bw.gain
    ensures Untuned(OnChange(bw, cw)) && Steady(OnChange(bw, cw))
  {
    assert OnChange(bw, cw) == ToggleHandler(bw, cw) + SettingHandlers(bw, cw);
    assert ToggleHandler(bw, cw) == [];
  }

  lemma PickedTunings(started: bool, bs: seq<Command>, cs: seq<Command>, os: seq<Command>,
                      hz: real, demod: seq<Command>)
    requires Untuned(bs) && Untuned(os) && Untuned(demod)
    requires !started ==> cs == []
    requires started ==> cs == [Tune(hz)] + demod
    ensures Tunings(bs + cs + os) == (if started then [hz] else [])
  {
    UntunedHasNoTunings(bs);
    UntunedHasNoTunings(os);
    TuningsAppend(bs, cs);
    TuningsAppend(bs + cs, os);
    if started {
      UntunedHasNoTunings(demod);
      TuningsAppend([Tune(hz)], demod);
    }
  }

  lemma PickedForwards(v: View, s: Station, b: Reaction, c: Reaction, hz: real)
    requires PickStages(v, s, b, c, hz)
    ensures var sent := b.sent + c.sent + OnChange(b.view, c.view);
            && (c.view.demodulator != v.demodulator ==> Demodulate(c.view.demodulator) in sent)
            && (c.view.antenna != v.antenna ==> SelectAntenna(c.view.antenna) in sent)
  {
    if b.view.demodulator != v.demodulator {
      assert Demodulate(b.view.demodulator) in b.sent;
    }
    if b.view.antenna != v.antenna {
      assert SelectAntenna(b.view.antenna) in b.sent;
    }
  }

  /** Every tuning the corrected station pick sends is to the frequency it shows. */
  lemma PickedTunesToView(v: View, s: Station, b: Reaction, c: Reaction)
    requires PickStages(v, s, b, c, s.frequency * KHZ)
    ensures TunesToView(Reaction(c.view, b.sent + c.sent + OnChange(b.view, c.view)))
  {
    BandStageQuiet(v, s, b);
    StationStageQuiet(b.view, c.view);
    TunesToViewConcat(c.view, b.sent, c.sent, OnChange(b.view, c.view));
  }

  // ---------------------------------------------------------------------------------------
  // Properties of the handlers

  /** Stepping up then down returns to the shown frequency; the field is left unfocused. */
  lemma StepRoundTrip(v: View)
    ensures StepDown(StepUp(v).view).view == v.(frequencyFocused := false)
    ensures StepUp(StepDown(v).view).view == v.(frequencyFocused := false)
  {
  }

  /** Toggling twice restores the view, and the second toggle undoes the first on the
      receiver: one sends a start, the other a stop. */
  lemma ToggleTwice(v: View)
    ensures ToggleStart(ToggleStart(v).view).view == v
    ensures Start in ToggleStart(v).sent <==> Stop in ToggleStart(ToggleStart(v).view).sent
  {
  }

  /** Applying a toggle's commands to a wired receiver leaves it streaming and playing
      exactly when the view says it is started, and tuned to the shown frequency in Hz
      when it starts. */
  lemma {:induction false} ToggleDrivesReceiver(v: View, rx: Receiver)
    requires Wired(rx)
    ensures var r := ToggleStart(v);
            var after := ApplyAll(rx, r.sent);
            && after.Success?
            && Streaming(after.value.events) == r.view.started
            && Playing(after.value.events) == r.view.started
            && (r.view.started ==> after.value.tuneHz == Some(v.frequency * KHZ))
  {
    var r := ToggleStart(v);
    if r.view.started {
      assert r.sent == [Tune(v.frequency * KHZ), Start];
      var rx1 := SetFrequency(rx, v.frequency * KHZ);
      assert Apply(rx, r.sent[0]) == Success(rx1);
      var rx2 := StartReceive(rx1);
      assert Apply(rx1, r.sent[1]) == Success(rx2);
      assert r.sent[1..][1..] == [];
      assert ApplyAll(rx2, r.sent[1..][1..]) == Success(rx2);
      assert ApplyAll(rx1, r.sent[1..]) == Success(rx2);
    } else {
      assert r.sent == [Stop];
      var rx1 := StopReceive(rx);
      assert Apply(rx, r.sent[0]) == Success(rx1);
      assert ApplyAll(rx1, r.sent[1..]) == Success(rx1);
    }
  }

  /** Submitting the field tunes a wired receiver, and centres its spectrum, at the shown
      frequency in Hz. */
  lemma SubmitTunesReceiver(v: View, rx: Receiver)
    requires Wired(rx)
    ensures var after := ApplyAll(rx, SubmitFrequency(v).sent);
            && after.Success?
            && after.value.tuneHz == Some(v.frequency * KHZ)
            && after.value.centreHz == Some(v.frequency * KHZ)
  {
    var rx1 := SetFrequency(rx, v.frequency * KHZ);
    assert ApplyAll(rx1, SubmitFrequency(v).sent[1..]) == Success(rx1);
  }

  /** `setToBand` is idempotent, and choosing the same band again sends nothing. */
  lemma SetToBandIdempotent(v: View, band: Option<Band>)
    ensures SetToBand(SetToBand(v, band), band) == SetToBand(v, band)
    ensures SelectBand(SelectBand(v, band).view, band).sent == []
  {
  }

  /** Choosing a band the view did not show forwards the band's demodulator and antenna
      when they differ from the view's, and neither tunes nor starts or stops the receiver
      (`setToBand` changes the frequency without sending it). */
  lemma SelectBandForwards(v: View, b: Band)
    requires Some(b) != v.selectedBand
    ensures var r := SelectBand(v, Some(b));
            && (b.demodulator.Some? && b.demodulator.value != v.demodulator ==>
                  Demodulate(b.demodulator.value) in r.sent)
            && (b.antenna.Some? && b.antenna.value != v.antenna ==>
                  SelectAntenna(b.antenna.value) in r.sent)
            && (b.demodulator.None? ==> forall i :: 0 <= i < |r.sent| ==> !r.sent[i].Demodulate?)
            && (forall i :: 0 <= i < |r.sent| ==> !r.sent[i].Tune?)
            && Start !in r.sent && Stop !in r.sent
  {
    var v1 := v.(selectedBand := Some(b));
    var w := SetToBand(v1, Some(b));
    assert w.started == v1.started && v1.demodulator == v.demodulator && v1.antenna == v.antenna;
  }

  /** The demodulator picker drives a wired receiver: a new key does exactly what
      `setDemodulator` does with it, and re-picking the shown key leaves it as it was. */
  lemma PickDemodulatorDrivesReceiver(v: View, rx: Receiver, key: string)
    requires Wired(rx)
    ensures ApplyAll(rx, PickDemodulator(v, key).sent)
            == if key != v.demodulator then SetDemodulator(rx, key) else Success(rx)
  {
    if key != v.demodulator {
      var sent := PickDemodulator(v, key).sent;
      assert sent == [Demodulate(key)] + [];
      if SetDemodulator(rx, key).Success? {
        ApplyAllCons(rx, Demodulate(key), []);
      }
    }
  }

  /** The antenna picker drives a wired receiver: a new antenna is set on it, and
      re-picking the shown one leaves it as it was. */
  lemma PickAntennaDrivesReceiver(v: View, rx: Receiver, name: string)
    requires Wired(rx)
    ensures ApplyAll(rx, PickAntenna(v, name).sent)
            == Success(if name != v.antenna then SetAntenna(rx, name) else rx)
  {
    if name != v.antenna {
      assert PickAntenna(v, name).sent == [SelectAntenna(name)] + [];
      ApplyAllCons(rx, SelectAntenna(name), []);
    }
  }

  /** The gain picker drives a wired receiver: a new gain is set on it, and re-picking the
      shown one leaves it as it was. */
  lemma PickGainDrivesReceiver(v: View, rx: Receiver, gain: int)
    requires Wired(rx)
    ensures ApplyAll(rx, PickGain(v, gain).sent)
            == Success(if gain != v.gain then SetGain(rx, gain) else rx)
  {
    if gain != v.gain {
      assert PickGain(v, gain).sent == [SelectGain(gain)] + [];
      ApplyAllCons(rx, SelectGain(gain), []);
    }
  }

  /** Choosing the station the view already shows changes nothing and sends nothing. */
  lemma SelectStationIdempotent(v: View, station: Option<Station>)
    ensures SelectStation(SelectStation(v, station).view, station) == Reaction(SelectStation(v, station).view, [])
  {
  }

  /** Finding: while started, `setToStation` tunes the receiver to the station's kHz figure
      as if it were Hz, so the tuning it sends disagrees with the frequency it shows. */
  lemma SetToStationUnscaled(v: View, s: Station)
    requires v.started && s.frequency != 0.0
    ensures Tunings(SetToStation(v, Some(s)).sent) == [s.frequency]
    ensures s.frequency != SetToStation(v, Some(s)).view.frequency * KHZ
    ensures !TunesToView(SetToStation(v, Some(s)))
  {
    var r := SetToStation(v, Some(s));
    assert r.sent[0] == Tune(s.frequency);
  }

  /** The finding reaches the station picker: picking a new station while started tunes the
      receiver to the station's kHz figure, which disagrees with the frequency shown. */
  lemma SelectStationUnscaled(v: View, s: Station)
    requires v.started && Some(s) != v.selectedStation && s.frequency != 0.0
    ensures Tunings(SelectStation(v, Some(s)).sent) == [s.frequency]
    ensures !TunesToView(SelectStation(v, Some(s)))
  {
    var r := PickStation(v, s);
    assert Tunings(r.sent) == [s.frequency];
    var i :| 0 <= i < |r.sent| && r.sent[i] == Tune(s.frequency);
    assert r.view.frequency == s.frequency;
  }

  /** The save field: a new station record named `name`, holding the shown frequency,
      demodulator and band, is inserted into the store's stations. It has an identity of
      its own, so it is a different station from every existing one, including a station
      with the same name and settings. Nothing is sent to the receiver. */
  function SaveStation(stations: seq<Station>, v: View, name: string): (r: seq<Station>)
    ensures |r| == |stations| + 1 && r[..|stations|] == stations
    ensures var s := r[|stations|];
            && s.name == name && s.frequency == v.frequency
            && s.demodulator == Some(v.demodulator) && s.band == v.selectedBand
    ensures forall i :: 0 <= i < |stations| ==> r[|stations|] != stations[i]
  {
    stations + [Station(FreshStationId(stations), name, v.frequency, Some(v.demodulator), v.selectedBand)]
  }

  /** Saving the station the view shows, under its own name, and then picking the saved
      record while started tunes the receiver again: the copy is a new choice. */
  lemma SavedCopyPicked(stations: seq<Station>, v: View, s: Station)
    requires v.started && v.selectedStation == Some(s) && s in stations
    ensures var copy := SaveStation(stations, v, s.name)[|stations|];
            && copy != s
            && Tunings(SelectStation(v, Some(copy)).sent) == [v.frequency]
            && SelectStation(v, Some(copy)).view.selectedStation == Some(copy)
  {
    var copy := SaveStation(stations, v, s.name)[|stations|];
    var i :| 0 <= i < |stations| && stations[i] == s;
    assert copy != s;
  }

  /** Pickers compare records by identity, so saving the shown station again creates a
      second station that is a new choice: picking it while started tunes the receiver
      again and selects the copy, although its name, frequency and demodulator are the
      same. */
  lemma DuplicateStationPicked(v: View, s: Station, copy: Station)
    requires v.started && v.selectedStation == Some(s)
    requires copy == s.(id := copy.id) && copy.id != s.id
    ensures Tunings(SelectStation(v, Some(copy)).sent) == [s.frequency]
    ensures SelectStation(v, Some(copy)).view.selectedStation == Some(copy)
  {
  }

  /** Likewise a band record equal in content to the shown band but distinct from it is a
      new choice: picking it applies `setToBand` again, resetting the shown frequency and
      step to the band's. */
  lemma DuplicateBandApplied(v: View, b: Band, copy: Band)
    requires v.selectedBand == Some(b)
    requires copy == b.(id := copy.id) && copy.id != b.id
    ensures SelectBand(v, Some(copy)).view.selectedBand == Some(copy)
    ensures SelectBand(v, Some(copy)).view.frequency == b.frequency
    ensures SelectBand(v, Some(copy)).view.frequencyStep == b.step
  {
  }

  /** The corrected `setToStation` tunes exactly as submitting the frequency field it
      leaves behind would, and never tunes while stopped. */
  lemma StationAgreesWithSubmit(v: View, s: Station)
    ensures v.started ==>
              Tunings(SetToStationCorrected(v, Some(s)).sent)
              == Tunings(SubmitFrequency(SetToStationCorrected(v, Some(s)).view).sent)
    ensures !v.started ==> Tunings(SetToStationCorrected(v, Some(s)).sent) == []
  {
  }
}

=== FILE: OptionalBinding.dfy ===
/** The nil-substituting binding of sdradio1/OptionalBinding.swift: a non-optional view of an
    optional source, in which nil reads as a chosen "nil value" and writing that value stores
    nil. The two closures the binding is built from are `Get` and `Set`. */
module OptionalBinding {
  import opened Wrappers

  /** The binding's getter: the source's value, or `nilValue` when the source is nil. */
  function Get<T>(source: Option<T>, nilValue: T): (v: T)
    ensures source.Some? ==> v == source.value
    ensures source.None? ==> v == nilValue
  {
    source.GetOr(nilValue)
  }

  /** The binding's setter: the new source is nil for `nilValue` and the new value otherwise.
      The old source is overwritten whatever it held. */
  function Set<T(==)>(source: Option<T>, newValue: T, nilValue: T): (r: Option<T>)
    ensures r.None? <==> newValue == nilValue
    ensures r.Some? ==> r.value == newValue
  {
    if newValue == nilValue then None else Some(newValue)
  }

  /** Reading after writing gives back what was written, for every value. */
  lemma GetAfterSet<T>(source: Option<T>, v: T, nilValue: T)
    ensures Get(Set(source, v, nilValue), nilValue) == v
  {
  }

  /** Writing the same value twice is writing it once. */
  lemma SetIdempotent<T>(source: Option<T>, v: T, nilValue: T)
    ensures Set(Set(source, v, nilValue), v, nilValue) == Set(source, v, nilValue)
  {
  }

  /** Writing back what was read leaves the source unchanged exactly when the source does not
      hold the nil value itself; a source holding `Some(nilValue)` is turned into nil. */
  lemma SetAfterGet<T>(source: Option<T>, nilValue: T)
    ensures Set(source, Get(source, nilValue), nilValue) == source <==> source != Some(nilValue)
    ensures source == Some(nilValue) ==> Set(source, Get(source, nilValue), nilValue) == None
  {
  }
}

=== FILE: Presets.dfy ===
/** The two stored preset entities the user interface and the start-up seeding share: a band
    (a frequency range with its own step, antenna and demodulator) and a station (a frequency,
    with an optional demodulator and band). Optional attributes of the store are `Option`s.
    Frequencies and steps are in kHz.

    Records are managed objects, and the user interface compares them by identity: `id`
    stands for that identity. Records of one entity in one store have distinct ids, so two
    records are equal exactly when they are the same object. Two stations saved with the
    same name, frequency and demodulator are therefore still two different stations. */
module Presets {
  import opened Wrappers

  datatype Band = Band(id: nat, name: string, antenna: Option<string>, demodulator: Option<string>,
                       frequency: real, step: real)

  datatype Station = Station(id: nat, name: string, frequency: real, demodulator: Option<string>,
                             band: Option<Band>)

  /** An identity no station of `stations` has: one past the largest, as a store gives a
      newly inserted object an identity of its own. */
  function FreshStationId(stations: seq<Station>): (id: nat)
    ensures forall i :: 0 <= i < |stations| ==> stations[i].id < id
    decreases |stations|
  {
    if |stations| == 0 then 0
    else
      var rest := FreshStationId(stations[1..]);
      assert forall i :: 1 <= i < |stations| ==> stations[i] == stations[1..][i - 1];
      if stations[0].id < rest then rest else stations[0].id + 1
  }

  /** The first band of `bands` named `name`, as a fetch limited to one result returns it. */
  function FirstNamed(bands: seq<Band>, name: string): (r: Option<Band>)
    ensures r.None? <==> forall i :: 0 <= i < |bands| ==> bands[i].name != name
    ensures r.Some? ==> exists i :: 0 <= i < |bands| && bands[i] == r.value
                          && r.value.name == name
                          && forall j :: 0 <= j < i ==> bands[j].name != name
    decreases |bands|
  {
    if |bands| == 0 then None
    else if bands[0].name == name then Some(bands[0])
    else
      var r := FirstNamed(bands[1..], name);
      if r.Some? then
        ghost var i :| 0 <= i < |bands| - 1 && bands[1..][i] == r.value && r.value.name == name
                       && forall j :: 0 <= j < i ==> bands[1..][j].name != name;
        assert bands[i + 1] == r.value;
        r
      else r
  }
}

=== FILE: ReceiveThread.dfy ===
/** The receiver of sdrplay1/ReceiveThread.swift as a record-state machine: the connection
    graph holding the tuner, the spectrum tap and the current demodulator assembly, the audio
    sink, the tuner's option settings, and the trace of start/stop calls made on the tuner,
    the audio output and the thread.

    The receive loop itself runs on the thread and is not part of this model; every
    operation here is one sequential call from the user interface. */
module ReceiveThread {
  import opened Wrappers
  import opened StreamGraph
  import opened AudioDemodulator

  /** The demodulator registry: the key a picker offers, and the assembly it constructs. */
  const Registry: map<string, Kind> := map["AM" := AM, "FM" := FM, "No demod." := NullDemod]

  /** The registry key of each kind. */
  function KeyOf(kind: Kind): string {
    match kind
    case AM => "AM"
    case FM => "FM"
    case NullDemod => "No demod."
  }

  // The tuner runs at this multiple of the audio output rate.
  const SDR_RATE_FACTOR := 50
  const FFT_LENGTH := 1024
  // Option values given to the tuner at construction. The antenna option's value lives in
  // the tuner driver; it is represented here by the name the band presets use for it.
  const INITIAL_GAIN_REDUCTION := 40
  const INITIAL_ANTENNA := "Antenna A"
  const BANDWIDTH_KHZ := 1536

  /** The tuner's option settings. `debug` is the verbose-logging option. */
  datatype Settings = Settings(rfNotch: bool, antenna: string, gainReduction: int,
                               bandwidthKHz: int, debug: bool)

  const InitialSettings := Settings(false, INITIAL_ANTENNA, INITIAL_GAIN_REDUCTION, BANDWIDTH_KHZ, false)

  /** Calls that start or stop something, in the order they were made. */
  datatype DeviceEvent = StreamStart | StreamStop | AudioResume | AudioStop | ThreadCancel

  /** `tuneHz` and `centreHz` are None until the first `SetFrequency` (device default). */
  datatype Receiver = Receiver(
    graph: Graph, sdr: NodeId, spectrum: NodeId, audio: AudioSink, demodulator: Assembly,
    settings: Settings, tuneHz: Option<real>, centreHz: Option<real>, events: seq<DeviceEvent>)

  /** The structural invariant every receiver keeps: the tuner feeds the spectrum tap and at
      most the current assembly's head; the assembly's stages are nodes other than the tuner
      and the tap, and exist exactly when it is not the null demodulator; the audio sink, when
      fed, is fed by the assembly's tail at its own rate; the tuner runs at 50 times the audio
      rate; and the spectrum is centred where the tuner is tuned. */
  predicate Wired(rx: Receiver) {
    var n, st := rx.graph.nodes, rx.demodulator.stages;
    && WellFormed(rx.graph)
    && rx.sdr in n && n[rx.sdr].stage == Tuner
    && rx.spectrum in n && n[rx.spectrum].stage == SpectrumTap(FFT_LENGTH)
    && rx.spectrum in rx.graph.sinks[rx.sdr]
    && rx.graph.sinks[rx.sdr] <= {rx.spectrum} + rx.demodulator.HeadSet()
    && (forall i :: 0 <= i < |st| ==> st[i] in n && st[i] != rx.sdr && st[i] != rx.spectrum)
    && (rx.demodulator.kind == NullDemod <==> |st| == 0)
    && (rx.audio.feed.Some? ==> rx.audio.feed == rx.demodulator.Tail() && n[rx.audio.feed.value].rate == rx.audio.rate)
    && n[rx.sdr].rate == SDR_RATE_FACTOR as real * rx.audio.rate
    && rx.tuneHz == rx.centreHz
  }

  /** The last start or stop of `t` among `on` and `off` was `on`. */
  predicate Running(t: seq<DeviceEvent>, on: DeviceEvent, off: DeviceEvent)
    decreases |t|
  {
    if |t| == 0 then false
    else if t[|t| - 1] == on then true
    else if t[|t| - 1] == off then false
    else Running(t[..|t| - 1], on, off)
  }

  predicate Streaming(t: seq<DeviceEvent>) {
    Running(t, StreamStart, StreamStop)
  }

  predicate Playing(t: seq<DeviceEvent>) {
    Running(t, AudioResume, AudioStop)
  }

  /** At every point of the trace the audio output plays only while the tuner streams:
      audio is resumed after the stream starts and stopped before the stream stops. */
  predicate AudioFollowsStream(t: seq<DeviceEvent>) {
    forall k :: 0 <= k <= |t| ==> Playing(t[..k]) ==> Streaming(t[..k])
  }

  /** `init()`: sets the tuner's options and rate, builds the FM demodulator on it, then adds
      the spectrum tap. Fails when the FM construction does. */
  function Init(audioHz: real): (r: Result<Receiver, BuildError>)
    ensures r.Success? <==> Buildable(audioHz, SDR_RATE_FACTOR as real * audioHz)
    ensures r.Success? ==>
              && Wired(r.value)
              && r.value.demodulator.kind == FM
              && r.value.audio.rate == audioHz
              && r.value.audio.feed == r.value.demodulator.Tail()
              && r.value.graph.sinks[r.value.sdr] == {r.value.spectrum} + r.value.demodulator.HeadSet()
              && r.value.settings == InitialSettings
              && r.value.tuneHz == None
              && r.value.events == []
  {
    var (g1, sdr) := AddNode(Empty, Tuner, SDR_RATE_FACTOR as real * audioHz);
    var b :- Build(FM, g1, sdr, AudioSink(audioHz, None));
    FreshTunerReady(audioHz, g1, sdr, b);
    Success(WithSpectrum(audioHz, sdr, b))
  }

  /** An FM assembly built on tuner `sdr` at 50 times `audioHz`: four stages other than the
      tuner, the head the tuner's only sink, the tail feeding the audio sink at its rate. */
  predicate TunerReady(audioHz: real, sdr: NodeId, b: Built) {
    var g, s := b.graph, b.assembly.stages;
    && WellFormed(g)
    && sdr in g.nodes && g.nodes[sdr] == Node(Tuner, SDR_RATE_FACTOR as real * audioHz)
    && b.assembly.kind == FM && |s| == 4
    && (forall i :: 0 <= i < |s| ==> s[i] in g.nodes && s[i] != sdr)
    && g.sinks[sdr] == {s[0]}
    && b.audio == AudioSink(audioHz, Some(s[3])) && g.nodes[s[3]].rate == audioHz
  }

  /** Building FM on a fresh tuner with no sinks leaves it ready for the spectrum tap. */
  lemma FreshTunerReady(audioHz: real, g1: Graph, sdr: NodeId, b: Built)
    requires WellFormed(g1) && sdr in g1.nodes && g1.sinks[sdr] == {}
    requires g1.nodes[sdr] == Node(Tuner, SDR_RATE_FACTOR as real * audioHz)
    requires b.assembly.kind == FM && Attached(g1, sdr, AudioSink(audioHz, None), b)
    ensures TunerReady(audioHz, sdr, b)
  {
    var s := b.assembly.stages;
    assert forall i :: 0 <= i < |s| ==> s[i] in b.graph.nodes && s[i] >= g1.nextId;
  }

  /** The rest of `init()` once the FM assembly is built on the tuner: the spectrum tap is
      added on the same tuner, and the result is a wired receiver. */
  function WithSpectrum(audioHz: real, sdr: NodeId, b: Built): (r: Receiver)
    requires TunerReady(audioHz, sdr, b)
    ensures Wired(r)
    ensures r.sdr == sdr && r.audio == b.audio && r.demodulator == b.assembly
    ensures r.graph.sinks[sdr] == {r.spectrum} + b.assembly.HeadSet()
    ensures r.settings == InitialSettings && r.tuneHz == None && r.events == []
  {
    var tap := AddStage(b.graph, sdr, SpectrumTap(FFT_LENGTH), SDR_RATE_FACTOR as real * audioHz);
    Receiver(tap.0, sdr, tap.1, b.audio, b.assembly, InitialSettings, None, None, [])
  }

  /** `setFrequency(_:)`: tunes the tuner and centres the spectrum on the same frequency. */
  function SetFrequency(rx: Receiver, hz: real): (r: Receiver)
    requires Wired(rx)
    ensures Wired(r)
    ensures r.tuneHz == Some(hz) && r.centreHz == Some(hz)
    ensures r == rx.(tuneHz := r.tuneHz, centreHz := r.centreHz)
  {
    rx.(tuneHz := Some(hz), centreHz := Some(hz))
  }

  /** What `setDemodulator(_:)` does first, whatever the key: the current head (if any) stops
      being a sink of the tuner, and the audio sink loses its feed. The tuner is then left
      feeding the spectrum tap alone. */
  function Detach(rx: Receiver): (r: Receiver)
    requires Wired(rx)
    ensures Wired(r)
    ensures r == rx.(graph := r.graph, audio := r.audio)
    ensures r.audio == rx.audio.(feed := None)
    ensures r.graph.nodes == rx.graph.nodes && r.graph.nextId == rx.graph.nextId
    ensures r.graph.sinks[rx.sdr] == rx.graph.sinks[rx.sdr] - rx.demodulator.HeadSet()
    ensures r.graph.sinks[rx.sdr] == {rx.spectrum}
    ensures forall id :: id in rx.graph.sinks && id != rx.sdr ==> r.graph.sinks[id] == rx.graph.sinks[id]
  {
    var g := match rx.demodulator.Head()
             case Some(head) => Disconnect(rx.graph, rx.sdr, head)
             case None => rx.graph;
    rx.(graph := g, audio := rx.audio.(feed := None))
  }

  /** The facts about a detached receiver that constructing a new assembly relies on. */
  predicate Detached(d: Receiver) {
    Wired(d) && d.audio.feed == None && d.graph.sinks[d.sdr] == {d.spectrum}
  }

  /** A new assembly built on a detached receiver's tuner and audio sink, installed as its
      demodulator, leaves the receiver wired. */
  lemma InstallWired(d: Receiver, kind: Kind, b: Built)
    requires Detached(d)
    requires b.assembly.kind == kind
    requires kind == NullDemod ==>
               b.graph == d.graph && b.audio == d.audio && b.assembly.Head() == None
    requires kind != NullDemod ==> Attached(d.graph, d.sdr, d.audio, b)
    ensures Wired(d.(graph := b.graph, audio := b.audio, demodulator := b.assembly))
    ensures b.graph.sinks[d.sdr] == {d.spectrum} + b.assembly.HeadSet()
    ensures forall i :: 0 <= i < |b.assembly.stages| ==> b.assembly.stages[i] !in d.graph.nodes
    ensures forall id :: id in d.graph.nodes ==> id in b.graph.nodes && b.graph.nodes[id] == d.graph.nodes[id]
    ensures forall id :: id in d.graph.sinks && id != d.sdr ==> id in b.graph.sinks && b.graph.sinks[id] == d.graph.sinks[id]
  {
    if kind != NullDemod {
      var s := b.assembly.stages;
      assert Attached(d.graph, d.sdr, d.audio, b);
      assert s[3] == b.assembly.Tail().value;
      assert forall i :: 0 <= i < |s| ==> s[i] in b.graph.nodes && s[i] >= d.graph.nextId;
    }
  }

  /** Constructs an assembly of `kind` on a detached receiver and installs it. */
  function Install(d: Receiver, kind: Kind): (r: Result<Receiver, BuildError>)
    requires Detached(d)
    ensures r.Success? <==> kind == NullDemod || Buildable(d.audio.rate, d.graph.nodes[d.sdr].rate)
    ensures r.Success? ==>
              && Wired(r.value)
              && r.value == d.(graph := r.value.graph, audio := r.value.audio, demodulator := r.value.demodulator)
              && r.value.demodulator.kind == kind
              && r.value.audio == d.audio.(feed := r.value.demodulator.Tail())
              && r.value.graph.sinks[d.sdr] == {d.spectrum} + r.value.demodulator.HeadSet()
              && (forall i :: 0 <= i < |r.value.demodulator.stages| ==> r.value.demodulator.stages[i] !in d.graph.nodes)
              && (forall id :: id in d.graph.nodes ==> id in r.value.graph.nodes && r.value.graph.nodes[id] == d.graph.nodes[id])
              && (forall id :: id in d.graph.sinks && id != d.sdr ==> id in r.value.graph.sinks && r.value.graph.sinks[id] == d.graph.sinks[id])
  {
    var b :- Build(kind, d.graph, d.sdr, d.audio);
    InstallWired(d, kind, b);
    Success(d.(graph := b.graph, audio := b.audio, demodulator := b.assembly))
  }

  /** `setDemodulator(_:)`: detaches the current assembly, then, for a registered key only,
      replaces it with a freshly constructed one of that key's kind. An unknown key leaves the
      (already detached) assembly in place and the audio sink without a feed. Fails when the
      construction does. */
  function SetDemodulator(rx: Receiver, key: string): (r: Result<Receiver, BuildError>)
    requires Wired(rx)
    ensures r.Success? <==>
              key !in Registry || Registry[key] == NullDemod
              || Buildable(rx.audio.rate, rx.graph.nodes[rx.sdr].rate)
    ensures r.Success? ==> Wired(r.value)
    ensures r.Success? ==>
              && r.value.sdr == rx.sdr && r.value.spectrum == rx.spectrum
              && r.value.audio.rate == rx.audio.rate
              && r.value.settings == rx.settings && r.value.tuneHz == rx.tuneHz
              && r.value.centreHz == rx.centreHz && r.value.events == rx.events
              && (forall id :: id in rx.graph.nodes ==> id in r.value.graph.nodes && r.value.graph.nodes[id] == rx.graph.nodes[id])
              && (forall id :: id in rx.graph.sinks && id != rx.sdr ==> id in r.value.graph.sinks && r.value.graph.sinks[id] == rx.graph.sinks[id])
    ensures r.Success? && key !in Registry ==>
              && r.value.demodulator == rx.demodulator
              && r.value.audio.feed == None
              && r.value.graph.sinks[rx.sdr] == rx.graph.sinks[rx.sdr] - rx.demodulator.HeadSet()
    ensures r.Success? && key in Registry ==>
              && r.value.demodulator.kind == Registry[key]
              && (forall i :: 0 <= i < |r.value.demodulator.stages| ==> r.value.demodulator.stages[i] !in rx.graph.nodes)
              && r.value.audio.feed == r.value.demodulator.Tail()
              && r.value.graph.sinks[rx.sdr]
                 == (rx.graph.sinks[rx.sdr] - rx.demodulator.HeadSet()) + r.value.demodulator.HeadSet()
  {
    var d := Detach(rx);
    if key !in Registry then Success(d)
    else Install(d, Registry[key])
  }

  /** `startReceive()`: debug logging on, start the stream, debug logging off, resume audio. */
  function StartReceive(rx: Receiver): (r: Receiver)
    requires Wired(rx)
    ensures Wired(r)
    ensures Streaming(r.events) && Playing(r.events)
    ensures AudioFollowsStream(rx.events) ==> AudioFollowsStream(r.events)
    ensures r.settings == rx.settings.(debug := false)
    ensures |r.events| > |rx.events| && r.events[..|rx.events|] == rx.events
    ensures r == rx.(settings := r.settings, events := r.events)
  {
    var t := rx.events + [StreamStart, AudioResume];
    StartKeepsAudioAfterStream(rx.events);
    rx.(settings := rx.settings.(debug := false), events := t)
  }

  /** `stopReceive()`: stop audio, then stop the stream. */
  function StopReceive(rx: Receiver): (r: Receiver)
    requires Wired(rx)
    ensures Wired(r)
    ensures !Streaming(r.events) && !Playing(r.events)
    ensures AudioFollowsStream(rx.events) ==> AudioFollowsStream(r.events)
    ensures |r.events| > |rx.events| && r.events[..|rx.events|] == rx.events
    ensures r == rx.(events := r.events)
  {
    var t := rx.events + [AudioStop, StreamStop];
    StopKeepsAudioAfterStream(rx.events);
    rx.(events := t)
  }

  /** `cancel()`: `stopReceive()`, then cancel the thread. */
  function Cancel(rx: Receiver): (r: Receiver)
    requires Wired(rx)
    ensures Wired(r)
    ensures !Streaming(r.events) && !Playing(r.events)
    ensures AudioFollowsStream(rx.events) ==> AudioFollowsStream(r.events)
    ensures |r.events| > 0 && r.events[|r.events| - 1] == ThreadCancel
    ensures r.events == StopReceive(rx).events + [ThreadCancel]
    ensures r.events == rx.events + [AudioStop, StreamStop, ThreadCancel]
    ensures r == rx.(events := r.events)
  {
    var s := StopReceive(rx);
    CancelKeepsAudioAfterStream(s.events);
    s.(events := s.events + [ThreadCancel])
  }

  /** `getGains()`: the offered gains, 0 dB down to -80 dB in 5 dB steps. */
  function Gains(): (r: seq<int>)
    ensures |r| == 17
    ensures forall i :: 0 <= i < |r| ==> r[i] == -5 * i
  {
    [0, -5, -10, -15, -20, -25, -30, -35, -40, -45, -50, -55, -60, -65, -70, -75, -80]
  }

  /** `MockReceiveThread.getAntennas()`: the antennas offered in previews and unit tests. */
  function MockAntennas(): (r: seq<string>)
    ensures |r| == 3 && r[0] == "Antenna 1"
    ensures forall i, j :: 0 <= i < j < |r| ==> r[i] != r[j]
  {
    ["Antenna 1", "Antenna 2", "Antenna 3"]
  }

  /** `MockReceiveThread.getGains()`: 0 dB down to -80 dB in 10 dB steps. */
  function MockGains(): (r: seq<int>)
    ensures |r| == 9
    ensures forall i :: 0 <= i < |r| ==> r[i] == -10 * i
  {
    [0, -10, -20, -30, -40, -50, -60, -70, -80]
  }

  /** Every gain the mock offers is one the live receiver offers too: every other one. */
  lemma MockGainsAreLiveGains()
    ensures forall i :: 0 <= i < |MockGains()| ==> MockGains()[i] == Gains()[2 * i]
    ensures forall g :: g in MockGains() ==> g in Gains()
  {
    var ms, gs := MockGains(), Gains();
    forall i | 0 <= i < |ms|
      ensures ms[i] == gs[2 * i]
    {
    }
  }

  /** The gain the tuner's current gain reduction corresponds to. */
  function Gain(rx: Receiver): int {
    -rx.settings.gainReduction
  }

  /** `set(gain:)`: the tuner takes a gain reduction, the negated gain. */
  function SetGain(rx: Receiver, gain: int): (r: Receiver)
    requires Wired(rx)
    ensures Wired(r)
    ensures Gain(r) == gain
    ensures r == rx.(settings := rx.settings.(gainReduction := r.settings.gainReduction))
  {
    rx.(settings := rx.settings.(gainReduction := -gain))
  }

  /** `set(antenna:)`. */
  function SetAntenna(rx: Receiver, name: string): (r: Receiver)
    requires Wired(rx)
    ensures Wired(r)
    ensures r.settings.antenna == name
    ensures r == rx.(settings := rx.settings.(antenna := name))
  {
    rx.(settings := rx.settings.(antenna := name))
  }

  // ---------------------------------------------------------------------------------------
  // The start/stop trace

  /** Events other than `on` and `off` do not change whether something is running. */
  lemma RunningAfterOther(t: seq<DeviceEvent>, e: DeviceEvent, on: DeviceEvent, off: DeviceEvent)
    requires e != on && e != off
    ensures Running(t + [e], on, off) == Running(t, on, off)
  {
    assert (t + [e])[..|t + [e]| - 1] == t;
  }

  lemma RunningAfter(t: seq<DeviceEvent>, e: DeviceEvent, on: DeviceEvent, off: DeviceEvent)
    ensures e == on ==> Running(t + [e], on, off)
    ensures e == off && e != on ==> !Running(t + [e], on, off)
  {
  }

  lemma StartKeepsAudioAfterStream(t: seq<DeviceEvent>)
    ensures Streaming(t + [StreamStart, AudioResume]) && Playing(t + [StreamStart, AudioResume])
    ensures AudioFollowsStream(t) ==> AudioFollowsStream(t + [StreamStart, AudioResume])
  {
    var t1, t2 := t + [StreamStart], t + [StreamStart, AudioResume];
    assert t2 == t1 + [AudioResume];
    RunningAfter(t, StreamStart, StreamStart, StreamStop);
    RunningAfterOther(t, StreamStart, AudioResume, AudioStop);
    RunningAfter(t1, AudioResume, AudioResume, AudioStop);
    RunningAfterOther(t1, AudioResume, StreamStart, StreamStop);
    if AudioFollowsStream(t) {
      forall k | 0 <= k <= |t2|
        ensures Playing(t2[..k]) ==> Streaming(t2[..k])
      {
        if k <= |t| {
          assert t2[..k] == t[..k];
        } else if k == |t| + 1 {
          assert t2[..k] == t1;
        } else {
          assert t2[..k] == t2;
        }
      }
    }
  }

  lemma StopKeepsAudioAfterStream(t: seq<DeviceEvent>)
    ensures !Streaming(t + [AudioStop, StreamStop]) && !Playing(t + [AudioStop, StreamStop])
    ensures AudioFollowsStream(t) ==> AudioFollowsStream(t + [AudioStop, StreamStop])
  {
    var t1, t2 := t + [AudioStop], t + [AudioStop, StreamStop];
    assert t2 == t1 + [StreamStop];
    RunningAfter(t, AudioStop, AudioResume, AudioStop);
    RunningAfter(t1, StreamStop, StreamStart, StreamStop);
    RunningAfterOther(t1, StreamStop, AudioResume, AudioStop);
    if AudioFollowsStream(t) {
      forall k | 0 <= k <= |t2|
        ensures Playing(t2[..k]) ==> Streaming(t2[..k])
      {
        if k <= |t| {
          assert t2[..k] == t[..k];
        } else if k == |t| + 1 {
          assert t2[..k] == t1;
        } else {
          assert t2[..k] == t2;
        }
      }
    }
  }

  lemma CancelKeepsAudioAfterStream(t: seq<DeviceEvent>)
    ensures Streaming(t + [ThreadCancel]) == Streaming(t) && Playing(t + [ThreadCancel]) == Playing(t)
    ensures AudioFollowsStream(t) ==> AudioFollowsStream(t + [ThreadCancel])
  {
    var t1 := t + [ThreadCancel];
    RunningAfterOther(t, ThreadCancel, StreamStart, StreamStop);
    RunningAfterOther(t, ThreadCancel, AudioResume, AudioStop);
    if AudioFollowsStream(t) {
      forall k | 0 <= k <= |t1|
        ensures Playing(t1[..k]) ==> Streaming(t1[..k])
      {
        if k <= |t| {
          assert t1[..k] == t[..k];
        } else {
          assert t1[..k] == t1;
          assert t[..|t|] == t;
        }
      }
    }
  }

  // ---------------------------------------------------------------------------------------
  // Properties of the registry and of swapping

  /** The registry has exactly three keys, and `KeyOf` is its inverse. */
  lemma RegistryRoundTrip()
    ensures Registry.Keys == {"AM", "FM", "No demod."}
    ensures forall kind :: KeyOf(kind) in Registry && Registry[KeyOf(kind)] == kind
    ensures forall key :: key in Registry ==> KeyOf(Registry[key]) == key
  {
  }

  /** After any successful swap the old head no longer feeds from the tuner, the spectrum
      tap still does, and the audio sink is not fed by any stage of the old assembly. */
  lemma SwapDetachesOldAssembly(rx: Receiver, key: string)
    requires Wired(rx) && SetDemodulator(rx, key).Success?
    ensures var r := SetDemodulator(rx, key).value;
            && rx.spectrum in r.graph.sinks[r.sdr]
            && (rx.demodulator.Head().Some? ==> rx.demodulator.Head().value !in r.graph.sinks[r.sdr])
            && (key in Registry ==> forall i :: 0 <= i < |rx.demodulator.stages| ==> r.audio.feed != Some(rx.demodulator.stages[i]))
  {
    var r := SetDemodulator(rx, key).value;
    if key in Registry && r.audio.feed.Some? {
      var st, ns := rx.demodulator.stages, r.demodulator.stages;
      assert r.audio.feed == Some(ns[|ns| - 1]);
      assert ns[|ns| - 1] !in rx.graph.nodes;
      assert forall i :: 0 <= i < |st| ==> st[i] in rx.graph.nodes;
    }
  }

  /** An unknown key (such as the "NFM" of the Weather band preset) does the detaching part
      only, so sending it twice is the same as sending it once. */
  lemma UnknownKeyIdempotent(rx: Receiver, key: string)
    requires Wired(rx) && key !in Registry
    ensures SetDemodulator(rx, key).Success?
    ensures SetDemodulator(SetDemodulator(rx, key).value, key) == SetDemodulator(rx, key)
  {
    var d := Detach(rx);
    var g, g2 := d.graph, Detach(d).graph;
    assert g2.sinks.Keys == g.sinks.Keys;
    assert forall id :: id in g.sinks ==> g2.sinks[id] == g.sinks[id];
    assert g2.sinks == g.sinks;
  }

  /** A whole multiple of a whole number of Hz is whole. `WholeAudioRateInit` and
      `WholeAudioRateSwap` need it for the tuner rate, `SDR_RATE_FACTOR` × the audio rate:
      the rate plan closes only when that rate is whole as well. */
  lemma WholeMultiple(x: real, n: nat)
    requires Whole(x)
    ensures Whole(n as real * x)
  {
    var m := n * x.Floor;
    assert n as real * x == m as real;
  }

  /** At a whole-Hz audio rate of at least 1 Hz the receiver can be constructed. */
  lemma WholeAudioRateInit(audioHz: real)
    requires Whole(audioHz) && audioHz >= 1.0
    ensures Init(audioHz).Success?
  {
    WholeMultiple(audioHz, SDR_RATE_FACTOR);
    WholeRatesAreBuildable(audioHz, SDR_RATE_FACTOR as real * audioHz);
  }

  /** At a whole-Hz audio rate of at least 1 Hz every key can be selected without a
      construction failure. */
  lemma WholeAudioRateSwap(rx: Receiver, key: string)
    requires Wired(rx) && Whole(rx.audio.rate) && rx.audio.rate >= 1.0
    ensures SetDemodulator(rx, key).Success?
  {
    WholeMultiple(rx.audio.rate, SDR_RATE_FACTOR);
    WholeRatesAreBuildable(rx.audio.rate, rx.graph.nodes[rx.sdr].rate);
  }

  /** At 44100.5 Hz the rate plan does not close and the receiver cannot be constructed. */
  lemma FractionalAudioRateInitFails()
    ensures Init(44100.5).Failure?
  {
    assert SDR_RATE_FACTOR as real * 44100.5 == 2205025.0;
    assert !Buildable(44100.5, 2205025.0) by {
      assert Truncate(5.0 * 44100.5) == 220502;
      assert Truncate(2205025.0) == 2205025;
      assert Truncate(44100.5) == 44100;
    }
  }

  // ---------------------------------------------------------------------------------------
  // Gains

  /** Every offered gain sets a gain reduction between 0 and 80 dB in a 5 dB step, and every
      such reduction is offered; the initial reduction is one of them. */
  lemma GainsAreReductions(rx: Receiver)
    requires Wired(rx)
    ensures forall i :: 0 <= i < |Gains()| ==>
              var r := SetGain(rx, Gains()[i]).settings.gainReduction;
              0 <= r <= 80 && r % 5 == 0
    ensures forall reduction :: 0 <= reduction <= 80 && reduction % 5 == 0 ==> -reduction in Gains()
    ensures -INITIAL_GAIN_REDUCTION in Gains()
  {
    var gs := Gains();
    forall reduction | 0 <= reduction <= 80 && reduction % 5 == 0
      ensures -reduction in gs
    {
      assert gs[reduction / 5] == -reduction;
    }
  }

  // ---------------------------------------------------------------------------------------
  // Commands from the user interface

  /** The calls the user interface makes on the receiver. */
  datatype Command =
    | Tune(hz: real)
    | Demodulate(key: string)
    | Start
    | Stop
    | SelectAntenna(name: string)
    | SelectGain(gain: int)

  /** One command. Only a demodulator swap can fail. */
  function Apply(rx: Receiver, c: Command): (r: Result<Receiver, BuildError>)
    requires Wired(rx)
    ensures !c.Demodulate? ==> r.Success?
    ensures c.Tune? ==> r.value.tuneHz == Some(c.hz) && r.value.centreHz == Some(c.hz)
    ensures c.Demodulate? && r.Success? && c.key in Registry ==> r.value.demodulator.kind == Registry[c.key]
    ensures c.Start? ==> Streaming(r.value.events) && Playing(r.value.events)
    ensures c.Stop? ==> !Streaming(r.value.events) && !Playing(r.value.events)
    ensures c.SelectAntenna? ==> r.value.settings.antenna == c.name
    ensures c.SelectGain? ==> Gain(r.value) == c.gain
    ensures r.Success? ==> Wired(r.value) && r.value.audio.rate == rx.audio.rate
    ensures r.Success? && !c.Tune? ==> r.value.tuneHz == rx.tuneHz
    ensures r.Success? && AudioFollowsStream(rx.events) ==> AudioFollowsStream(r.value.events)
    ensures r.Success? ==> |rx.events| <= |r.value.events| && r.value.events[..|rx.events|] == rx.events
  {
    match c
    case Tune(hz) => Success(SetFrequency(rx, hz))
    case Demodulate(key) => SetDemodulator(rx, key)
    case Start => Success(StartReceive(rx))
    case Stop => Success(StopReceive(rx))
    case SelectAntenna(name) => Success(SetAntenna(rx, name))
    case SelectGain(gain) => Success(SetGain(rx, gain))
  }

  /** The frequency of the last tuning command of `cs`, if it has one. */
  function LastTune(cs: seq<Command>): (r: Option<real>)
    ensures r.None? <==> forall i :: 0 <= i < |cs| ==> !cs[i].Tune?
    decreases |cs|
  {
    if |cs| == 0 then None
    else if cs[|cs| - 1].Tune? then Some(cs[|cs| - 1].hz)
    else LastTune(cs[..|cs| - 1])
  }

  lemma {:induction false} LastTuneCons(c: Command, cs: seq<Command>)
    ensures LastTune([c] + cs) == if LastTune(cs).Some? then LastTune(cs) else if c.Tune? then Some(c.hz) else None
    decreases |cs|
  {
    var all := [c] + cs;
    if |cs| == 0 {
      assert all[..|all| - 1] == [];
    } else {
      assert all[|all| - 1] == cs[|cs| - 1];
      assert all[..|all| - 1] == [c] + cs[..|cs| - 1];
      LastTuneCons(c, cs[..|cs| - 1]);
    }
  }

  /** A prefix of a prefix is a prefix. */
  lemma PrefixOfPrefix(a: seq<DeviceEvent>, b: seq<DeviceEvent>, c: seq<DeviceEvent>)
    requires |a| <= |b| && b[..|a|] == a
    requires |b| <= |c| && c[..|b|] == b
    ensures |a| <= |c| && c[..|a|] == a
  {
    assert c[..|a|] == c[..|b|][..|a|];
  }

  /** A sequence of commands, stopping at the first failure. */
  function ApplyAll(rx: Receiver, cs: seq<Command>): (r: Result<Receiver, BuildError>)
    requires Wired(rx)
    ensures (forall i :: 0 <= i < |cs| ==> !cs[i].Demodulate?) ==> r.Success?
    ensures r.Success? ==> Wired(r.value) && r.value.audio.rate == rx.audio.rate
    ensures r.Success? ==> r.value.tuneHz == if LastTune(cs).Some? then LastTune(cs) else rx.tuneHz
    ensures r.Success? && AudioFollowsStream(rx.events) ==> AudioFollowsStream(r.value.events)
    ensures r.Success? ==> |rx.events| <= |r.value.events| && r.value.events[..|rx.events|] == rx.events
    decreases |cs|
  {
    if |cs| == 0 then Success(rx)
    else
      var step := Apply(rx, cs[0]);
      if step.Failure? then Failure(step.error)
      else
        var next := step.value;
        var r := ApplyAll(next, cs[1..]);
        LastTuneCons(cs[0], cs[1..]);
        assert [cs[0]] + cs[1..] == cs;
        if r.Success? then
          PrefixOfPrefix(rx.events, next.events, r.value.events);
          r
        else r
  }

  /** Applying a sequence that starts with a successful command is applying the rest to
      that command's result. */
  lemma ApplyAllCons(rx: Receiver, c: Command, cs: seq<Command>)
    requires Wired(rx) && Apply(rx, c).Success?
    ensures ApplyAll(rx, [c] + cs) == ApplyAll(Apply(rx, c).value, cs)
  {
    var all := [c] + cs;
    assert all[0] == c && all[1..] == cs;
  }

  /** At a whole-Hz audio rate of at least 1 Hz every command, and so every sequence of
      commands, succeeds. */
  lemma WholeAudioRateCommand(rx: Receiver, c: Command)
    requires Wired(rx) && Whole(rx.audio.rate) && rx.audio.rate >= 1.0
    ensures Apply(rx, c).Success?
  {
    if c.Demodulate? {
      WholeAudioRateSwap(rx, c.key);
    }
  }

  lemma {:induction false} WholeAudioRateCommands(rx: Receiver, cs: seq<Command>)
    requires Wired(rx) && Whole(rx.audio.rate) && rx.audio.rate >= 1.0
    ensures ApplyAll(rx, cs).Success?
    decreases |cs|
  {
    if |cs| > 0 {
      WholeAudioRateCommand(rx, cs[0]);
      WholeAudioRateCommands(Apply(rx, cs[0]).value, cs[1..]);
    }
  }
}

=== FILE: StreamGraph.dfy ===
/** The connection graph of sdrlib stream nodes, seen only as far as the receiver's control
    plane relies on it. sdrlib is not part of this model: no filter, demodulator or FFT
    arithmetic is represented, only node identities, the stage each node runs (with the
    construction parameters it was given), its declared output sample rate and the set of
    sinks each node feeds.

    Four behaviours of sdrlib are ASSUMED here because the receiver code depends on them:
    (1) a stage constructed with `source:` becomes one of that source's sinks
        (`AddStage`), and `disconnect(sink:)` removes exactly that sink (`Disconnect`);
    (2) a rate converter `UpFIRDown(source, L, M, ...)` outputs at the source rate
        times L / M (`ConvertedRate`);
    (3) the detectors and finishers (FMDemodulate, AMEnvDemodulate, FMDeemphasis, AGC)
        output at their input rate;
    (4) a rate converter given a non-positive factor fails to construct (`BadRatio`).
    Whether the demodulators' construction assertion holds depends on (2) and (3). */
module StreamGraph {
  import opened Wrappers

  /** Handle of a node in the graph; handles are drawn fresh and never reused. */
  type NodeId = nat

  /** Element type of a stream: complex IQ pairs or real scalars. */
  datatype SampleType = Complex | Real

  /** Window functions a rate converter's kernel can be built with. */
  datatype Window = Rectangular | Hamming | Blackman

  /** What a node does, with the construction parameters the receiver passes to it. */
  datatype Stage =
    | Tuner                                     // the SDRplay producer
    | SpectrumTap(fftLength: nat)               // SpectrumData
    | RateConverter(samples: SampleType, up: int, down: int,
                    halfLength: nat, cutoff: real, window: Window)  // UpFIRDown
    | FMDiscriminator(modulationFactor: real)   // FMDemodulate
    | EnvelopeDetector(factor: real)            // AMEnvDemodulate
    | Deemphasis(tau: real)                     // FMDeemphasis
    | GainControl(gain: real)                   // AGC
  {
    /** The element type the stage consumes; the tuner consumes nothing. */
    function Input(): Option<SampleType> {
      match this
      case Tuner => None
      case SpectrumTap(_) => Some(Complex)
      case RateConverter(t, _, _, _, _, _) => Some(t)
      case FMDiscriminator(_) => Some(Complex)
      case EnvelopeDetector(_) => Some(Complex)
      case Deemphasis(_) => Some(Real)
      case GainControl(_) => Some(Real)
    }

    /** The element type the stage produces; the spectrum tap is a terminal sink. */
    function Output(): Option<SampleType> {
      match this
      case Tuner => Some(Complex)
      case SpectrumTap(_) => None
      case RateConverter(t, _, _, _, _, _) => Some(t)
      case FMDiscriminator(_) => Some(Real)
      case EnvelopeDetector(_) => Some(Real)
      case Deemphasis(_) => Some(Real)
      case GainControl(_) => Some(Real)
    }
  }

  datatype Node = Node(stage: Stage, rate: real)

  /** An arena of nodes, the sinks each node feeds, and the next fresh handle. Nodes are
      never removed: a node nothing reaches any more is simply garbage. */
  datatype Graph = Graph(nodes: map<NodeId, Node>, sinks: map<NodeId, set<NodeId>>, nextId: NodeId)

  predicate WellFormed(g: Graph) {
    && g.sinks.Keys == g.nodes.Keys
    && (forall id :: id in g.nodes ==> id < g.nextId)
    && (forall id :: id in g.sinks ==> g.sinks[id] <= g.nodes.Keys)
  }

  const Empty := Graph(map[], map[], 0)

  /** Swift's `Int(x)` on a Double: truncation toward zero. */
  function Truncate(x: real): (n: int)
    ensures -1.0 < x - n as real < 1.0
    ensures 0.0 <= x ==> 0.0 <= n as real <= x
    ensures x <= 0.0 ==> x <= n as real <= 0.0
  {
    if 0.0 <= x then x.Floor else -((-x).Floor)
  }

  /** Assumption (2): the output rate of `UpFIRDown(source, up, down, ...)`. */
  function ConvertedRate(inRate: real, up: int, down: int): real
    requires down > 0
  {
    inRate * (up as real) / (down as real)
  }

  /** A node with no source (a producer), under a fresh handle. */
  function AddNode(g: Graph, stage: Stage, rate: real): (r: (Graph, NodeId))
    requires WellFormed(g)
    ensures WellFormed(r.0)
    ensures r.1 !in g.nodes && r.1 in r.0.nodes
    ensures r.0.nodes[r.1] == Node(stage, rate) && r.0.sinks[r.1] == {}
    ensures r.0.nodes.Keys == g.nodes.Keys + {r.1}
    ensures forall id :: id in g.nodes ==> r.0.nodes[id] == g.nodes[id] && r.0.sinks[id] == g.sinks[id]
    ensures g.nextId <= r.1 < r.0.nextId
  {
    var id := g.nextId;
    (Graph(g.nodes[id := Node(stage, rate)], g.sinks[id := {}], id + 1), id)
  }

  /** Assumption (1): constructing a stage on `source` registers it as one of the source's
      sinks. Swift's generic typing only lets a stage be built on a source whose element type
      is the stage's input type, hence the last requires. */
  function AddStage(g: Graph, source: NodeId, stage: Stage, rate: real): (r: (Graph, NodeId))
    requires WellFormed(g) && source in g.nodes
    requires stage.Input().Some? && stage.Input() == g.nodes[source].stage.Output()
    ensures WellFormed(r.0)
    ensures r.1 !in g.nodes && r.1 in r.0.nodes
    ensures r.0.nodes[r.1] == Node(stage, rate) && r.0.sinks[r.1] == {}
    ensures r.0.nodes.Keys == g.nodes.Keys + {r.1}
    ensures r.0.sinks[source] == g.sinks[source] + {r.1}
    ensures forall id :: id in g.nodes ==> r.0.nodes[id] == g.nodes[id]
    ensures forall id :: id in g.nodes && id != source ==> r.0.sinks[id] == g.sinks[id]
    ensures g.nextId <= r.1 < r.0.nextId
    ensures Feeds(r.0, source, r.1)
  {
    var (g1, id) := AddNode(g, stage, rate);
    (g1.(sinks := g1.sinks[source := g1.sinks[source] + {id}]), id)
  }

  /** `a` feeds `b` in `g`, over an edge whose element types match. */
  predicate Feeds(g: Graph, a: NodeId, b: NodeId) {
    && a in g.nodes && b in g.nodes && a in g.sinks
    && b in g.sinks[a]
    && g.nodes[b].stage.Input() == g.nodes[a].stage.Output()
  }

  /** Adding a stage keeps every existing connection. */
  lemma AddStageKeepsFeeds(g: Graph, source: NodeId, stage: Stage, rate: real, a: NodeId, b: NodeId)
    requires WellFormed(g) && source in g.nodes
    requires stage.Input().Some? && stage.Input() == g.nodes[source].stage.Output()
    requires Feeds(g, a, b)
    ensures Feeds(AddStage(g, source, stage, rate).0, a, b)
  {
  }

  /** Assumption (1): `source.disconnect(sink:)` stops feeding `sink` and nothing else; it is
      a no-op when `sink` is not fed by `source`. */
  function Disconnect(g: Graph, source: NodeId, sink: NodeId): (r: Graph)
    requires WellFormed(g) && source in g.nodes
    ensures WellFormed(r)
    ensures r.nodes == g.nodes && r.nextId == g.nextId
    ensures r.sinks[source] == g.sinks[source] - {sink}
    ensures forall id :: id in g.nodes && id != source ==> r.sinks[id] == g.sinks[id]
  {
    g.(sinks := g.sinks[source := g.sinks[source] - {sink}])
  }
}

=== FILE: TypeErase.dfy ===
/** The type-erased fan-out source of sdrplay1/TryTypeErase.playground: a source keeps a list
    of sinks, each wrapped as a closure over its input type, and `run` hands one value to every
    sink in the order they were added. A sink is a class instance: it is represented by an
    object identity `ref` (two sinks are the same exactly when their identities are) and the
    name it prints; what it does with a value (it prints it) is represented by the `Delivery`
    it receives. The source's output type
    and each sink's input type are the type parameter, so only a sink of the source's own
    element type can be added, as the compiler enforces in the playground. */
module TypeErase {

  datatype Sink<T> = Sink(ref: nat, name: string)

  datatype Source<T> = Source(sinks: seq<Sink<T>>)

  /** One sink processing one value. */
  datatype Delivery<T> = Delivery(sink: Sink<T>, value: T)

  const NoSinks: Source<string> := Source([])

  /** `add(_:)`: the sink is appended after every sink already added. */
  function Add<T>(src: Source<T>, sink: Sink<T>): (r: Source<T>)
    ensures |r.sinks| == |src.sinks| + 1
    ensures r.sinks[..|src.sinks|] == src.sinks && r.sinks[|src.sinks|] == sink
  {
    Source(src.sinks + [sink])
  }

  /** What running `x` through `sinks` delivers: `x` to each sink, in list order. */
  function Deliveries<T>(sinks: seq<Sink<T>>, x: T): (d: seq<Delivery<T>>)
    ensures |d| == |sinks|
    ensures forall i :: 0 <= i < |d| ==> d[i] == Delivery(sinks[i], x)
  {
    if |sinks| == 0 then [] else [Delivery(sinks[0], x)] + Deliveries(sinks[1..], x)
  }

  /** `run(_:)`: calls every sink's wrapper on `x`, one after the other. */
  method Run<T>(src: Source<T>, x: T) returns (delivered: seq<Delivery<T>>)
    ensures |delivered| == |src.sinks|
    ensures forall i :: 0 <= i < |delivered| ==> delivered[i].sink == src.sinks[i] && delivered[i].value == x
    ensures delivered == Deliveries(src.sinks, x)
  {
    delivered := [];
    var k := 0;
    while k < |src.sinks|
      invariant 0 <= k <= |src.sinks|
      invariant |delivered| == k
      invariant forall i :: 0 <= i < k ==> delivered[i] == Delivery(src.sinks[i], x)
    {
      delivered := delivered + [Delivery(src.sinks[k], x)];
      k := k + 1;
    }
  }

  /** How many of `d` went to `sink`. */
  function DeliveredTo<T>(d: seq<Delivery<T>>, sink: Sink<T>): nat {
    if |d| == 0 then 0
    else (if d[0].sink == sink then 1 else 0) + DeliveredTo(d[1..], sink)
  }

  lemma {:induction false} DeliveredToAppend<T>(d: seq<Delivery<T>>, e: seq<Delivery<T>>, sink: Sink<T>)
    ensures DeliveredTo(d + e, sink) == DeliveredTo(d, sink) + DeliveredTo(e, sink)
    decreases |d|
  {
    if |d| == 0 {
      assert d + e == e;
    } else {
      assert (d + e)[1..] == d[1..] + e;
      DeliveredToAppend(d[1..], e, sink);
    }
  }

  /** Adding a sink then running delivers what running delivered before, followed by one
      delivery to the new sink. */
  lemma AddThenRun<T>(src: Source<T>, sink: Sink<T>, x: T)
    ensures Deliveries(Add(src, sink).sinks, x) == Deliveries(src.sinks, x) + [Delivery(sink, x)]
  {
  }

  /** A sink added twice receives each value twice more than it did before. */
  lemma AddedTwiceDeliveredTwice<T>(src: Source<T>, sink: Sink<T>, x: T)
    ensures DeliveredTo(Deliveries(Add(Add(src, sink), sink).sinks, x), sink)
            == DeliveredTo(Deliveries(src.sinks, x), sink) + 2
  {
    var d := Deliveries(src.sinks, x);
    AddThenRun(src, sink, x);
    AddThenRun(Add(src, sink), sink, x);
    DeliveredToAppend(d, [Delivery(sink, x)], sink);
    DeliveredToAppend(d + [Delivery(sink, x)], [Delivery(sink, x)], sink);
  }

  /** The playground's script: two sinks added to a string source, then one run. */
  lemma PlaygroundScript()
    ensures var y, z := Sink(0, "y"), Sink(1, "z");
            var src := Add(Add(NoSinks, y), z);
            Deliveries(src.sinks, "input") == [Delivery(y, "input"), Delivery(z, "input")]
  {
  }
}

=== FILE: Wrappers.dfy ===
/** Optional values and failure-compatible results, used wherever the Swift code has an
    optional (`T?`) or a construction that can fail. */
module Wrappers {

  /** Swift's `Optional<T>`: `nil` or a wrapped value. */
  datatype Option<+T> = None | Some(value: T) {

    /** Swift's `??` operator: the wrapped value, or `default` for nil. */
    function GetOr(default: T): T {
      if Some? then value else default
    }
  }

  /** The outcome of a construction that can fail; usable with `:-`. */
  datatype Result<+R, +E> = Success(value: R) | Failure(error: E) {

    predicate IsFailure() {
      Failure?
    }

    function PropagateFailure<U>(): Result<U, E>
      requires Failure?
    {
      Failure(error)
    }

    function Extract(): R
      requires Success?
    {
      value
    }
  }
}
